=== FILE: README.md ===
# Retail metrics dashboard: parsing and table logic in Dafny

The dashboard reads a CSV export of retail metrics. Each row names a
location, a category, a product and a metric, and carries one value per month
column plus a total. `parseCSV` turns the rows into a four-level dictionary,
location → metric → category → product → record. The metrics table then
shows, for one location and one selected metric:

- eighteen month columns, newest first (`getMonthColumns`), grouped into
  years and quarters for the header;
- a row per category, holding the category total of each month, and the
  category's product rows when it is expanded;
- a totals row.

A category or product cell with a positive value, other than in the last
column, carries a growth indicator comparing the month with the month before
it, which is the column to its right; a product cell whose previous month is
null carries none, and neither does the totals row. Money metrics are shown
in rupees with the Indian crore / lakh / thousand suffixes (`formatINRValue`).

The model has one Dafny module per concern:

- `CsvParser` (csv_parser.dfy) covers the row loop of `parseCSV`.
  - The class `ParsedData` fills the dictionary in place, one get-or-create
    step at a time.
  - The method `ParseCSV` runs the loop and is proved equal to the pure fold
    `Parse`.
  - Lemmas state what the result contains: the last row wins, skipped rows
    leave no trace, and levels exist only for kept rows.
- `Strings` and `Numbers` model the JavaScript primitives the code relies on.
  - `Strings` covers `trim`, `includes` and `toLowerCase`.
  - `Numbers` covers `parseFloat` as `ParseNum` and `toFixed` as `Fixed`, on
    exact reals.
- `MonthColumns` models `getMonthColumns`.
- `InrFormat` models `formatINRValue`.
- `TableTotals` models `calculateCategoryTotal` and `calculateMetricTotal`.
  - Both are left folds over `Object.values`, with the key order as a
    parameter.
  - They are proved equal to order-free sums over the dictionary's keys,
    using `Sums`.
- `ColumnGroups` models `groupColumnsByYear` and `groupColumnsByQuarter`.
  - Both use one imperative grouping loop.
  - It is proved equal to an order-preserving filter.
- `Growth` models `GrowthIndicator`.
- `MetricsTable` models the rest of the component:
  - the expanded-category state (`toggleCategory`), as a class;
  - `isRevenueMetric`;
  - the rules for what a category, product or totals cell shows and when it
    carries an indicator.

The growth label is `Math.abs(growth).toFixed(1)` followed
by "%". It carries no sign, so a fall of 9.1% reads "9.1%" with a down arrow.

## Model

| member | source | states |
|---|---|---|
| CsvParser.Field | src/utils/csvParser.ts:37-40 | A trimmed identity field is empty exactly when the column is absent, null or all white space; otherwise it neither starts nor ends with white space |
| Strings.Trim | src/utils/csvParser.ts:37-40 | The result is the input with its leading and trailing white space removed: it occurs in the input between two all-space pieces, and it is empty exactly when the input is all white space |
| Strings.TrimIdempotent | src/utils/csvParser.ts:37-40 | Trimming twice gives the same result as trimming once |
| CsvParser.TotalOf | src/utils/csvParser.ts:41 | The total is the number `Total` parses to, and 0 when the column is absent, null or not a number |
| CsvParser.NormalizeCell | src/utils/csvParser.ts:68-75 | A null or empty month cell becomes null; any other cell becomes what `parseFloat` reads from it, NaN giving null |
| CsvParser.MonthsOf | src/utils/csvParser.ts:63-77 | The month map holds exactly the row's headers that pass the month test, each with its normalised cell |
| CsvParser.RowRecord | src/utils/csvParser.ts:37-48 | A row is skipped exactly when one of its four trimmed identity fields is empty; otherwise its record holds those fields, its month map and its total |
| CsvParser.ParsedData.EnsureLocation | src/utils/csvParser.ts:50-53 | The location level is created empty if it was missing, and nothing else changes |
| CsvParser.ParsedData.EnsureMetric | src/utils/csvParser.ts:54-57 | The metric level under the location is created empty if it was missing, and nothing else changes |
| CsvParser.ParsedData.EnsureCategory | src/utils/csvParser.ts:58-61 | The category level under the metric is created empty if it was missing, and nothing else changes |
| CsvParser.ParsedData.SetProduct | src/utils/csvParser.ts:81-88 | The record is written at its four-part path and overwrites any earlier record there; every other path is unchanged |
| CsvParser.ParsedData.AddRow | src/utils/csvParser.ts:36-89 | One iteration of the row loop leaves the dictionary equal to the specification step for that row: unchanged for a skipped row, otherwise the record inserted |
| CsvParser.BuildMonths | src/utils/csvParser.ts:63-77 | The loop over the row's keys builds exactly the month map: every header that passes the month test, mapped to its normalised cell |
| CsvParser.ParseCSV | src/utils/csvParser.ts:23-95 | The row-by-row loop returns the dictionary that folding the rows in order specifies |
| CsvParser.GetOrCreateKeepsRecords | src/utils/csvParser.ts:50-61 | The three get-or-create steps add empty levels only: no stored record at any path is lost or changed |
| CsvParser.InsertLookup | src/utils/csvParser.ts:50-88 | Processing a valid record stores it at its path and leaves every other path as it was |
| CsvParser.InsertLevels | src/utils/csvParser.ts:50-61 | Processing a valid record creates exactly the location, metric and category levels on its own path and no others |
| CsvParser.ParseLookup | src/utils/csvParser.ts:36-89 | The record under any path of the result is the last kept row with that location, metric, category and product; none is summed or merged |
| CsvParser.ParseLevels | src/utils/csvParser.ts:45-61 | A location, metric or category key exists in the result exactly when some kept row names it |
| CsvParser.LastRowWins | src/utils/csvParser.ts:81-88 | A kept row whose path no later kept row shares is what the result holds at that path (the full content of every path is `ParseLookup`) |
| CsvParser.SkippedRowLeavesNoTrace | src/utils/csvParser.ts:45-48 | A row whose location, category, product or metric is missing, null or blank can be removed from the input without changing the result |
| CsvParser.StoredRecordOfRow | src/utils/csvParser.ts:37-88 | A valid row stores a record with the trimmed identity fields, the month map and the total parsed from `Total` (0 when that does not parse) |
| CsvParser.MonthCellCases | src/utils/csvParser.ts:68-75 | An empty or null month cell gives null, a cell that is not a number gives null, and "0" gives 0 |
| CsvParser.FixedColumnsAreNotMonths | src/utils/csvParser.ts:67 | The Location, Category, Product, Metric and Total headers never pass the month test |
| CsvParser.SubstringHeuristic | src/utils/csvParser.ts:67 | The month test is a substring test: a header such as "SKU-24X" counts as a month column |
| CsvParser.IsMonthKey | src/utils/csvParser.ts:67 | A header is a month column exactly when it is some text, "-", more text, and also some text, "24" or "25", more text |
| Strings.LowerChar | src/components/MetricsTable.tsx:112 | An ASCII capital becomes the small letter the same distance from 'a' as the capital is from 'A'; every other character is kept |
| Strings.Lower | src/components/MetricsTable.tsx:112 | `toLowerCase` keeps the length and lower-cases the text character by character |
| Strings.Includes | src/utils/csvParser.ts:67 | `includes` holds exactly when the pattern occurs at some position of the text |
| Numbers.ParseNum | src/utils/csvParser.ts:73-74 | `parseFloat` gives NaN for a text without any digit, and the integer a text of digits alone denotes |
| Numbers.ParseNumBasics | src/utils/csvParser.ts:73-74 | The empty text and "abc" parse to NaN; "0" parses to 0 |
| Numbers.Fixed | src/utils/csvParser.ts:99-105 | The text of `toFixed` is not empty, starts with '-' exactly when the value is negative and with a digit otherwise, and ends in a digit |
| Numbers.FixedRoundTrip | src/utils/csvParser.ts:97-107 | Reading the text `toFixed(f)` produces back with `parseFloat` gives the value rounded to f places |
| Numbers.RoundedIsClose | src/utils/csvParser.ts:97-107 | The value rounded to f places is within half a unit of the f-th place of the value |
| InrFormat.TierOf | src/utils/csvParser.ts:97-106 | The chosen tier is the one whose range contains the value: at least 1 crore, 1 lakh to 1 crore, 1 thousand to 1 lakh, or below a thousand |
| InrFormat.TiersAreExclusive | src/utils/csvParser.ts:97-106 | No value lies in two tiers |
| InrFormat.FormatINR | src/utils/csvParser.ts:97-107 | Every formatted value starts with the rupee sign and has at least one more character |
| InrFormat.SuffixByRange | src/utils/csvParser.ts:97-106 | The text ends in "Cr", "L" or "K" exactly when the value is in the crore, lakh or thousand range, and ends in a digit exactly when the value is below 1000 |
| InrFormat.FigureReadsBack | src/utils/csvParser.ts:97-106 | The text is the rupee sign, a figure and the tier suffix; the figure reads back within half a unit of its last place of the value divided by the tier's unit |
| InrFormat.FormatCrore | src/utils/csvParser.ts:98-99 | 15,000,000 is shown as "₹1.5Cr" |
| InrFormat.FormatLakh | src/utils/csvParser.ts:100-101 | 250,000 is shown as "₹2.5L" |
| InrFormat.FormatThousand | src/utils/csvParser.ts:102-103 | 5,000 is shown as "₹5.0K" |
| InrFormat.FormatUnits | src/utils/csvParser.ts:104-105 | 999 is shown as "₹999", with no decimal places |
| MonthColumns.SplitFirstTwo | src/utils/csvParser.ts:117 | The first two pieces of `split('-')`: the first holds no '-' and is the whole text when there is none; otherwise the text starts with the first piece, '-' and the second piece |
| MonthColumns.MonthNumber | src/utils/csvParser.ts:118-121 | A known month name maps to its position in January to December, counted from 0; an unknown name maps to 0 |
| MonthColumns.ColumnOf | src/utils/csvParser.ts:116-128 | Each column is keyed and headed by its label, and its quarter is between 1 and 4 |
| MonthColumns.Columns | src/utils/csvParser.ts:109-130 | `getMonthColumns` gives one column per label, in label order, each the column its label describes |
| MonthColumns.YearOf | src/utils/csvParser.ts:126 | `parseInt("20" + year)` is 2000 + yy for a two-digit year part yy, and 20 when the label has no year part |
| MonthColumns.ColumnOfLabel | src/utils/csvParser.ts:116-128 | A label "Mmm-yy" gives year 2000 + yy and quarter (month number / 3) + 1 |
| MonthColumns.ColumnAt | src/utils/csvParser.ts:109-130 | Column i is the month and year its label names: June 2025 back to January 2025, then December 2024 back to January 2024 |
| MonthColumns.ColumnsShape | src/utils/csvParser.ts:109-130 | There are eighteen columns, each keyed and headed by its label, of year 2024 or 2025, with a quarter from 1 to 4 that is the label's month number / 3 + 1 |
| MonthColumns.NextColumnIsPreviousMonth | src/utils/csvParser.ts:110-114 | Each column is exactly one calendar month after the column to its right |
| MonthColumns.LabelsAreMonthKeys | src/utils/csvParser.ts:110-114 | Every table column passes the parser's month test, so the parser stores it in `months` |
| TableTotals.Values | src/components/MetricsTable.tsx:69 | `Object.values` for a given key order: the values of the keys in that order |
| TableTotals.CellValue | src/components/MetricsTable.tsx:70-71 | A product contributes its month value, or 0 when the month is absent or null |
| TableTotals.CalculateCategoryTotal | src/components/MetricsTable.tsx:68-73 | A category total is never negative when no product's value is negative |
| TableTotals.CalculateMetricTotal | src/components/MetricsTable.tsx:75-79 | A metric total is never negative when no product's value is negative |
| TableTotals.CategoryTotalIsSum | src/components/MetricsTable.tsx:68-73 | Whatever order `Object.values` lists the products in, the fold equals the order-free sum of the month value over the category's products |
| TableTotals.CategoryTotalAdd | src/components/MetricsTable.tsx:68-73 | Adding a product to a category adds exactly its month value (0 when absent or null) to the total |
| TableTotals.MetricTotalIsSum | src/components/MetricsTable.tsx:75-79 | Whatever order the categories and their products are listed in, the fold equals the order-free sum of the category totals |
| TableTotals.MetricTotalIsProductSum | src/components/MetricsTable.tsx:75-79 | The metric total is the sum of the month value over every (category, product) pair of the metric |
| ColumnGroups.Group | src/components/MetricsTable.tsx:90-97 | The grouping loop creates a bucket for exactly the keys that occur, and each bucket holds the columns with that key in their original order |
| ColumnGroups.GroupColumnsByYear | src/components/MetricsTable.tsx:81-88 | The columns split into the years 2025 and 2024 only: 2025 holds the first six columns and 2024 the remaining twelve, in list order |
| ColumnGroups.GroupColumnsByQuarter | src/components/MetricsTable.tsx:90-97 | A year's columns are bucketed by quarter: one bucket per quarter that occurs, each holding that quarter's columns in order |
| ColumnGroups.BucketMembers | src/components/MetricsTable.tsx:92-95 | A column is in a bucket exactly when it is one of the input columns and has the bucket's key |
| ColumnGroups.BucketConcat | src/components/MetricsTable.tsx:92-95 | Grouping preserves order: the bucket of a concatenation is the concatenation of the buckets |
| ColumnGroups.BucketSizesSum | src/components/MetricsTable.tsx:90-97 | The bucket sizes add up to the number of columns, so the grouping is a partition |
| ColumnGroups.YearGroups | src/components/MetricsTable.tsx:81-88 | The table's year keys are exactly 2024 and 2025; 2025 holds the first six columns, 2024 the rest, and any other year nothing |
| ColumnGroups.QuartersOf2025 | src/components/MetricsTable.tsx:90-97 | The 2025 columns fall into quarters 1 and 2, three months each |
| ColumnGroups.QuartersOf2024 | src/components/MetricsTable.tsx:90-97 | The 2024 columns fall into quarters 1 to 4, three months each |
| Growth.IndicatorOf | src/components/MetricsTable.tsx:20-41 | The indicator says "no data" exactly when a value is missing or zero; an arrow's magnitude is at least a tenth of a percent |
| Growth.DirectionFromPositive | src/components/MetricsTable.tsx:30-41 | Against a positive previous value, the indicator is neutral exactly when the change is below a thousandth of that value, and the arrow points up exactly when the value rose |
| Growth.DirectionFromNegative | src/components/MetricsTable.tsx:30-41 | Against a negative previous value, the indicator is neutral exactly when the change is below a thousandth of that value's size, and the arrow points up exactly when the value fell |
| Growth.Label | src/components/MetricsTable.tsx:20-48 | The text is never empty, and it ends in "%" exactly when the indicator has data ("0%" or a magnitude), the no-data text is exactly "-" and the neutral text exactly "0%" |
| Growth.ChangeReconstructs | src/components/MetricsTable.tsx:30-46 | The direction and magnitude give back the current value: current = previous × (1 ± magnitude / 100) |
| Growth.ChangeLabel | src/components/MetricsTable.tsx:46 | An arrow's label is a figure followed by "%"; the figure starts with a digit, so it has no sign, and it reads back within 0.05 of the magnitude |
| Growth.TenPercentRise | src/components/MetricsTable.tsx:30-46 | From 100 to 110 is an upward change of 10, labelled "10.0%" |
| Growth.NinePointOneFall | src/components/MetricsTable.tsx:30-46 | From 110 to 100 is a downward change of 100/11, labelled "9.1%" |
| Growth.SmallChangeIsNeutral | src/components/MetricsTable.tsx:21-41 | From 2000 to 2000.5 is neutral; a zero current value or a missing previous one gives "no data" |
| MetricsTable.TableState.constructor | src/components/MetricsTable.tsx:53 | No category is expanded at first |
| MetricsTable.TableState.ToggleCategory | src/components/MetricsTable.tsx:58-66 | The new expanded set is the old one with the category removed if it was present, added otherwise |
| MetricsTable.ToggleFlips | src/components/MetricsTable.tsx:58-66 | Toggling flips membership of that category and leaves every other category as it was |
| MetricsTable.ToggleTwice | src/components/MetricsTable.tsx:58-66 | Toggling the same category twice restores the set |
| MetricsTable.IsRevenueMetric | src/components/MetricsTable.tsx:111-115 | A metric is shown in rupees exactly when its lower-cased name is some text, then one of "sales", "revenue", "value", "amount" and "vat", then some more text |
| MetricsTable.RevenueIgnoresCase | src/components/MetricsTable.tsx:111-115 | Lower-casing the name first does not change the answer |
| MetricsTable.RevenueWithin | src/components/MetricsTable.tsx:111-115 | Any name that contains a revenue metric's name is a revenue metric too |
| MetricsTable.RevenueExamples | src/components/MetricsTable.tsx:111-115 | "Net Sales" is shown in rupees; "Units" is not |
| MetricsTable.PrivateLabelIsRevenue | src/components/MetricsTable.tsx:115 | The test is on substrings: "Private Label Units" contains "vat" and is shown in rupees |
| MetricsTable.FormatValue | src/components/MetricsTable.tsx:238 | A formatted value, in rupees or to one place, is never the dash used for an empty cell |
| MetricsTable.CategoryCellAt | src/components/MetricsTable.tsx:226-245 | A category cell shows a dash exactly when its total is 0, and otherwise the formatted total; it shows an indicator exactly when its total is positive and it is not the last column, and that indicator is the growth of its total over the total of the next column |
| MetricsTable.ProductCellAt | src/components/MetricsTable.tsx:261-280 | A product cell shows a dash exactly when its value is absent, null or 0; otherwise it shows the formatted value; it shows an indicator exactly when its value is positive, it is not the last column and the value of the next column is not null, and that indicator is the growth of its value over that next value |
| MetricsTable.MissingPreviousShowsNoData | src/components/MetricsTable.tsx:263-275 | When the previous month is absent from a product's record (undefined, not null), the guard lets the indicator through and it says "no data" |
| MetricsTable.LastColumnHasNoIndicator | src/components/MetricsTable.tsx:228-229 | The last column (January 2024 in the table) never shows an indicator, for categories and products alike |
| MetricsTable.TotalsCellAt | src/components/MetricsTable.tsx:297-305 | A totals cell shows a dash exactly when the metric total of the month is 0, and otherwise the formatted metric total; it carries no indicator |
| MetricsTable.PreviousIsMonthBefore | src/components/MetricsTable.tsx:228-229 | In the table's own columns, a category or product cell with an indicator compares its figure with that of the calendar month before |

## Left out

- The CSV reader (Papa Parse) is not part of this model: splitting the text, quoting, `skipEmptyLines` and header trimming. Its output, a sequence of rows keyed by header, is the model's input.
- The `console.log` calls are left out: they produce no result.
- src/pages/Index.tsx (fetching the fixed file `/Metrics.csv`, loading and error states, location tabs) and server/static.ts are not part of this model.
- JSX markup, CSS classes, icons, and React's `useState` and re-rendering are left out. The expanded set is a class field, and the selected metric is a parameter.
- The "no data for this location" fallback and the count of products per category are left out. They are display text only.
- MetricsTable.ProductCellAt: a product value of 0 gives the dash, and the guard `currentValue && ...` then evaluates to 0, which React renders as a "0" beside the dash; this rendering artefact is not modelled.
- Product rows are shown only when their category is expanded. The cell rules are modelled, but the visibility of the row is not.
- JavaScript object key order is not modelled.
  - The order in which `Object.values` lists a dictionary is a parameter, and the totals are proved independent of it.
  - The order in which `Object.entries` lists categories and products is not modelled, and neither is the numeric key order of the grouped year and quarter objects.
- Numbers are exact reals, not IEEE doubles. NaN is `None`.
- Numbers.ParseNum: does not model exponents ("1e3") or "Infinity", which `parseFloat` also reads.
- Numbers.Fixed: models rounding half away from zero on the exact value. It does not model the binary representation of doubles, exponent notation for values of 1e21 and above, or negative zero.
- TableTotals.CategoryTotalIsSum: holds for exact arithmetic. With doubles, sums in different orders can differ in the last bits.
- TableTotals.MetricTotalIsSum: holds for exact arithmetic, for the same reason.
- Growth.IndicatorOf: computes the percentage exactly. Double rounding at the 0.1% neutral threshold is not modelled.
- Strings.Lower: lower-cases ASCII letters only. `toLowerCase` also maps other Unicode letters.
- MonthColumns.LeadingInt: models `parseInt` only for text that starts with digits, the only form `getMonthColumns` produces.
- Property names that collide with `Object.prototype` members (such as "constructor") are treated as ordinary keys.

=== FILE: column_groups.dfy ===
/**
 * `groupColumnsByYear` and `groupColumnsByQuarter` of MetricsTable.tsx: the
 * month columns are pushed, in order, into one bucket per year (or quarter),
 * a bucket being created the first time its key is seen.
 */
module ColumnGroups {
  import opened Sums
  import opened MonthColumns

  /** The field a grouping buckets by. */
  datatype GroupBy = ByYear | ByQuarter

  function KeyOf(col: MonthColumn, field: GroupBy): int {
    match field
    case ByYear => col.year
    case ByQuarter => col.quarter
  }

  /** The columns of `cols` whose key is `k`, in their order in `cols`. */
  function Bucket(cols: seq<MonthColumn>, field: GroupBy, k: int): (b: seq<MonthColumn>)
    ensures |b| <= |cols|
  {
    if cols == [] then []
    else
      var last := cols[|cols| - 1];
      Bucket(cols[..|cols| - 1], field, k) + (if KeyOf(last, field) == k then [last] else [])
  }

  /** The keys that occur in `cols`. */
  function KeysOf(cols: seq<MonthColumn>, field: GroupBy): set<int> {
    set c | c in cols :: KeyOf(c, field)
  }

  /** The `forEach` that pushes every column into the bucket of its key. */
  method Group(cols: seq<MonthColumn>, field: GroupBy) returns (grouped: map<int, seq<MonthColumn>>)
    ensures grouped.Keys == KeysOf(cols, field)
    ensures forall k :: k in grouped ==> grouped[k] == Bucket(cols, field, k)
  {
    grouped := map[];
    for i := 0 to |cols|
      invariant grouped.Keys == KeysOf(cols[..i], field)
      invariant forall k :: k in grouped ==> grouped[k] == Bucket(cols[..i], field, k)
    {
      var col := cols[i];
      var k := KeyOf(col, field);
      if k !in grouped {
        grouped := grouped[k := []];
      }
      grouped := grouped[k := grouped[k] + [col]];
      assert cols[..i + 1] == cols[..i] + [col];
      KeysSnoc(cols[..i], col, field);
      forall k' ensures Bucket(cols[..i + 1], field, k') == Bucket(cols[..i], field, k') + (if k' == k then [col] else []) {
        BucketSnoc(cols[..i], col, field, k');
      }
      if k !in KeysOf(cols[..i], field) {
        BucketAbsent(cols[..i], field, k);
      }
    }
    assert cols[..|cols|] == cols;
  }

  /** `groupColumnsByYear()`: the table's columns grouped by year. */
  method GroupColumnsByYear() returns (grouped: map<int, seq<MonthColumn>>)
    ensures grouped.Keys == {2024, 2025}
    ensures grouped[2025] == Columns()[..6] && grouped[2024] == Columns()[6..]
  {
    grouped := Group(Columns(), ByYear);
    YearGroups();
  }

  /** `groupColumnsByQuarter(yearColumns)`: a year's columns grouped by quarter. */
  method GroupColumnsByQuarter(yearColumns: seq<MonthColumn>) returns (grouped: map<int, seq<MonthColumn>>)
    ensures grouped.Keys == KeysOf(yearColumns, ByQuarter)
    ensures forall q :: q in grouped ==> grouped[q] == Bucket(yearColumns, ByQuarter, q)
  {
    grouped := Group(yearColumns, ByQuarter);
  }

  // ---------------------------------------------------------------------------
  // Grouping is an order-preserving partition

  lemma {:induction false} BucketSnoc(s: seq<MonthColumn>, c: MonthColumn, field: GroupBy, k: int)
    ensures Bucket(s + [c], field, k) == Bucket(s, field, k) + (if KeyOf(c, field) == k then [c] else [])
  {
    assert (s + [c])[..|s|] == s;
  }

  lemma {:induction false} KeysSnoc(s: seq<MonthColumn>, c: MonthColumn, field: GroupBy)
    ensures KeysOf(s + [c], field) == KeysOf(s, field) + {KeyOf(c, field)}
  {
    assert forall x :: x in s + [c] <==> x in s || x == c;
  }

  /** A key that no column has gets an empty bucket. */
  lemma {:induction false} BucketAbsent(cols: seq<MonthColumn>, field: GroupBy, k: int)
    requires k !in KeysOf(cols, field)
    ensures Bucket(cols, field, k) == []
    decreases |cols|
  {
    if cols != [] {
      var init, last := cols[..|cols| - 1], cols[|cols| - 1];
      assert cols == init + [last];
      KeysSnoc(init, last, field);
      BucketAbsent(init, field, k);
    }
  }

  /** A bucket holds exactly the columns with its key: each column lands in the bucket of its own key and no other. */
  lemma {:induction false} BucketMembers(cols: seq<MonthColumn>, field: GroupBy, k: int)
    ensures forall c :: c in Bucket(cols, field, k) <==> c in cols && KeyOf(c, field) == k
    decreases |cols|
  {
    if cols != [] {
      var init, last := cols[..|cols| - 1], cols[|cols| - 1];
      BucketMembers(init, field, k);
      assert cols == init + [last];
    }
  }

  /** Bucketing the concatenation of two lists concatenates their buckets: order is kept. */
  lemma {:induction false} BucketConcat(a: seq<MonthColumn>, b: seq<MonthColumn>, field: GroupBy, k: int)
    ensures Bucket(a + b, field, k) == Bucket(a, field, k) + Bucket(b, field, k)
    decreases |b|
  {
    if b == [] {
      assert a + b == a;
    } else {
      var init := b[..|b| - 1];
      assert (a + b)[..|a + b| - 1] == a + init;
      BucketConcat(a, init, field, k);
    }
  }

  /** A list whose columns all have key `kb` is one bucket. */
  lemma {:induction false} BucketOfBlock(s: seq<MonthColumn>, field: GroupBy, kb: int, k: int)
    requires forall i :: 0 <= i < |s| ==> KeyOf(s[i], field) == kb
    ensures Bucket(s, field, k) == if k == kb then s else []
    decreases |s|
  {
    if s != [] {
      var init := s[..|s| - 1];
      BucketOfBlock(init, field, kb, k);
      assert init + [s[|s| - 1]] == s;
    }
  }

  /** The value of key `k` is the size of its bucket. */
  function BucketSize(cols: seq<MonthColumn>, field: GroupBy): int -> real {
    k => |Bucket(cols, field, k)| as real
  }

  /** The bucket sizes add up to the number of columns: no column is lost or counted twice. */
  lemma {:induction false} BucketSizesSum(cols: seq<MonthColumn>, field: GroupBy)
    ensures SetSum(KeysOf(cols, field), BucketSize(cols, field)) == |cols| as real
    decreases |cols|
  {
    if cols == [] {
      assert KeysOf(cols, field) == {};
    } else {
      var init, last := cols[..|cols| - 1], cols[|cols| - 1];
      assert cols == init + [last];
      BucketSizesSum(init, field);
      SizesSnoc(init, last, field);
    }
  }

  /** Appending a column adds one to its own bucket's size and leaves the other sizes alone. */
  lemma {:induction false} SizesSnoc(s: seq<MonthColumn>, c: MonthColumn, field: GroupBy)
    ensures SetSum(KeysOf(s + [c], field), BucketSize(s + [c], field))
         == SetSum(KeysOf(s, field), BucketSize(s, field)) + 1.0
  {
    var k := KeyOf(c, field);
    var keys := KeysOf(s, field);
    var before, after := BucketSize(s, field), BucketSize(s + [c], field);
    KeysSnoc(s, c, field);
    forall k' ensures after(k') == before(k') + (if k' == k then 1.0 else 0.0) {
      BucketSnoc(s, c, field, k');
    }
    var others := keys - {k};
    SetSumCongruent(others, after, before);
    assert SetSum(others, after) == SetSum(others, before);
    if k in keys {
      assert keys + {k} == keys;
      SetSumRemove(keys, after, k);
      SetSumRemove(keys, before, k);
    } else {
      assert others == keys;
      BucketAbsent(s, field, k);
      assert after(k) == 1.0;
      SetSumInsert(keys, after, k);
      assert SetSum(keys + {k}, after) == SetSum(keys, before) + 1.0;
    }
  }

  // ---------------------------------------------------------------------------
  // The table's own columns

  /** The quarter of column `i`. */
  function QuarterAt(i: nat): int
    requires i < 18
  {
    if i < 3 then 2 else if i < 6 then 1 else if i < 9 then 4 else if i < 12 then 3 else if i < 15 then 2 else 1
  }

  lemma {:induction false} ColumnKeys()
    ensures TableKeys(Columns())
  {
    forall i | 0 <= i < 18
      ensures Columns()[i].year == (if i < 6 then 2025 else 2024) && Columns()[i].quarter == QuarterAt(i)
    {
      ColumnKeysAt(i);
    }
  }

  lemma {:induction false} ColumnKeysAt(i: nat)
    requires i < 18
    ensures Columns()[i].year == (if i < 6 then 2025 else 2024) && Columns()[i].quarter == QuarterAt(i)
  {
    ColumnAt(i);
    var m := LabelMonth(i);
    assert Columns()[i].quarter == m / 3 + 1;
    if i < 3 {
      assert 3 <= m < 6 && m / 3 == 1;
    } else if i < 6 {
      assert 0 <= m < 3 && m / 3 == 0;
    } else if i < 9 {
      assert 9 <= m < 12 && m / 3 == 3;
    } else if i < 12 {
      assert 6 <= m < 9 && m / 3 == 2;
    } else if i < 15 {
      assert 3 <= m < 6 && m / 3 == 1;
    } else {
      assert 0 <= m < 3 && m / 3 == 0;
    }
  }

  lemma {:induction false} KeysOfConcat(a: seq<MonthColumn>, b: seq<MonthColumn>, field: GroupBy)
    ensures KeysOf(a + b, field) == KeysOf(a, field) + KeysOf(b, field)
  {
    assert forall c :: c in a + b <==> c in a || c in b;
  }

  lemma {:induction false} KeysOfBlock(s: seq<MonthColumn>, field: GroupBy, kb: int)
    requires s != [] && forall i :: 0 <= i < |s| ==> KeyOf(s[i], field) == kb
    ensures KeysOf(s, field) == {kb}
  {
    assert s[0] in s;
  }

  /** The keys of the table's columns, column by column. */
  ghost predicate TableKeys(cs: seq<MonthColumn>) {
    && |cs| == 18
    && (forall i :: 0 <= i < 18 ==> cs[i].year == (if i < 6 then 2025 else 2024))
    && (forall i :: 0 <= i < 18 ==> cs[i].quarter == QuarterAt(i))
  }

  /** The columns fall into 2025 (the first six) and 2024 (the other twelve). */
  lemma {:induction false} YearGroups()
    ensures KeysOf(Columns(), ByYear) == {2024, 2025}
    ensures Bucket(Columns(), ByYear, 2025) == Columns()[..6]
    ensures Bucket(Columns(), ByYear, 2024) == Columns()[6..]
    ensures forall y :: y !in {2024, 2025} ==> Bucket(Columns(), ByYear, y) == []
  {
    ColumnKeys();
    YearsOf(Columns());
  }

  lemma {:induction false} YearsOf(cs: seq<MonthColumn>)
    requires TableKeys(cs)
    ensures KeysOf(cs, ByYear) == {2024, 2025}
    ensures forall y :: Bucket(cs, ByYear, y) == (if y == 2025 then cs[..6] else if y == 2024 then cs[6..] else [])
  {
    var recent, earlier := cs[..6], cs[6..];
    assert cs == recent + earlier;
    KeysOfConcat(recent, earlier, ByYear);
    KeysOfBlock(recent, ByYear, 2025);
    KeysOfBlock(earlier, ByYear, 2024);
    forall y
      ensures Bucket(cs, ByYear, y) == (if y == 2025 then recent else if y == 2024 then earlier else [])
    {
      BucketConcat(recent, earlier, ByYear, y);
      BucketOfBlock(recent, ByYear, 2025, y);
      BucketOfBlock(earlier, ByYear, 2024, y);
    }
  }

  /** Of the six 2025 columns, three are in Q2 and three in Q1. */
  lemma {:induction false} QuartersOf2025()
    ensures KeysOf(Columns()[..6], ByQuarter) == {1, 2}
    ensures forall q :: |Bucket(Columns()[..6], ByQuarter, q)| == (if q in {1, 2} then 3 else 0)
  {
    ColumnKeys();
    RecentQuarters(Columns());
  }

  /** Two blocks of columns, each with its own key, make two buckets. */
  lemma {:induction false} TwoBlocks(a: seq<MonthColumn>, b: seq<MonthColumn>, field: GroupBy, ka: int, kb: int)
    requires a != [] && b != [] && ka != kb
    requires forall i :: 0 <= i < |a| ==> KeyOf(a[i], field) == ka
    requires forall i :: 0 <= i < |b| ==> KeyOf(b[i], field) == kb
    ensures KeysOf(a + b, field) == {ka, kb}
    ensures forall k :: Bucket(a + b, field, k) == (if k == ka then a else if k == kb then b else [])
  {
    KeysOfConcat(a, b, field);
    KeysOfBlock(a, field, ka);
    KeysOfBlock(b, field, kb);
    forall k
      ensures Bucket(a + b, field, k) == (if k == ka then a else if k == kb then b else [])
    {
      BucketConcat(a, b, field, k);
      BucketOfBlock(a, field, ka, k);
      BucketOfBlock(b, field, kb, k);
    }
  }

  /** Three consecutive table columns of one quarter. */
  lemma {:induction false} QuarterBlock(cs: seq<MonthColumn>, lo: nat, q: int, block: seq<MonthColumn>)
    requires TableKeys(cs) && lo + 3 <= 18 && block == cs[lo..lo + 3]
    requires QuarterAt(lo) == q && QuarterAt(lo + 1) == q && QuarterAt(lo + 2) == q
    ensures forall i :: 0 <= i < |block| ==> KeyOf(block[i], ByQuarter) == q
  {
  }

  lemma {:induction false} RecentQuarters(cs: seq<MonthColumn>)
    requires TableKeys(cs)
    ensures KeysOf(cs[..6], ByQuarter) == {1, 2}
    ensures forall q :: |Bucket(cs[..6], ByQuarter, q)| == (if q in {1, 2} then 3 else 0)
  {
    var q2, q1 := cs[0..3], cs[3..6];
    assert cs[..6] == q2 + q1;
    QuarterBlock(cs, 0, 2, q2);
    QuarterBlock(cs, 3, 1, q1);
    TwoBlocks(q2, q1, ByQuarter, 2, 1);
  }

  /** The twelve 2024 columns fill all four quarters, three each. */
  lemma {:induction false} QuartersOf2024()
    ensures KeysOf(Columns()[6..], ByQuarter) == {1, 2, 3, 4}
    ensures forall q :: |Bucket(Columns()[6..], ByQuarter, q)| == (if q in {1, 2, 3, 4} then 3 else 0)
  {
    ColumnKeys();
    EarlierQuarters(Columns());
  }

  lemma {:induction false} EarlierQuarters(cs: seq<MonthColumn>)
    requires TableKeys(cs)
    ensures KeysOf(cs[6..], ByQuarter) == {1, 2, 3, 4}
    ensures forall q :: |Bucket(cs[6..], ByQuarter, q)| == (if q in {1, 2, 3, 4} then 3 else 0)
  {
    var q4, q3, q2, q1 := cs[6..9], cs[9..12], cs[12..15], cs[15..18];
    assert cs[6..] == (q4 + q3) + (q2 + q1);
    QuarterBlock(cs, 6, 4, q4);
    QuarterBlock(cs, 9, 3, q3);
    QuarterBlock(cs, 12, 2, q2);
    QuarterBlock(cs, 15, 1, q1);
    FourBlocks(q4, q3, q2, q1);
  }

  /** Four blocks of three columns, of quarters 4, 3, 2 and 1, make four buckets of three. */
  lemma {:induction false} FourBlocks(q4: seq<MonthColumn>, q3: seq<MonthColumn>, q2: seq<MonthColumn>, q1: seq<MonthColumn>)
    requires |q4| == 3 && |q3| == 3 && |q2| == 3 && |q1| == 3
    requires forall i :: 0 <= i < |q4| ==> KeyOf(q4[i], ByQuarter) == 4
    requires forall i :: 0 <= i < |q3| ==> KeyOf(q3[i], ByQuarter) == 3
    requires forall i :: 0 <= i < |q2| ==> KeyOf(q2[i], ByQuarter) == 2
    requires forall i :: 0 <= i < |q1| ==> KeyOf(q1[i], ByQuarter) == 1
    ensures KeysOf((q4 + q3) + (q2 + q1), ByQuarter) == {1, 2, 3, 4}
    ensures forall q :: |Bucket((q4 + q3) + (q2 + q1), ByQuarter, q)| == (if q in {1, 2, 3, 4} then 3 else 0)
  {
    TwoBlocks(q4, q3, ByQuarter, 4, 3);
    TwoBlocks(q2, q1, ByQuarter, 2, 1);
    KeysOfConcat(q4 + q3, q2 + q1, ByQuarter);
    forall q
      ensures |Bucket((q4 + q3) + (q2 + q1), ByQuarter, q)| == (if q in {1, 2, 3, 4} then 3 else 0)
    {
      BucketConcat(q4 + q3, q2 + q1, ByQuarter, q);
    }
  }
}

=== FILE: csv_parser.dfy ===
/**
 * The CSV-to-hierarchy transform of csvParser.ts (`parseCSV`): every record the
 * CSV reader yields is trimmed, checked, and written into a four-level
 * dictionary location -> metric -> category -> product -> MetricData.
 *
 * The imperative part (the class ParsedData and the method ParseCSV) follows
 * the source's loop; the functions below it are its specification, and the
 * lemmas state what the transform promises.
 */
module CsvParser {
  import opened Wrappers
  import opened Strings
  import opened Numbers

  /**
   * One record as the CSV reader hands it over, keyed by trimmed header name.
   * A key missing from the map reads as `undefined`; a present key holding
   * `None` holds `null`.
   */
  type Row = map<string, Option<string>>

  /** A month cell is a number or absent (`null`). */
  type MonthValues = map<string, Option<real>>

  datatype MetricData = MetricData(
    location: string,
    category: string,
    product: string,
    metric: string,
    months: MonthValues,
    total: real)

  type ProductMap = map<string, MetricData>
  type CategoryMap = map<string, ProductMap>
  type MetricMap = map<string, CategoryMap>
  /** ParsedCSVData: location -> metric -> category -> product -> record. */
  type Tree = map<string, MetricMap>

  /** The four-part identity under which a record is stored. */
  datatype Path = Path(location: string, metric: string, category: string, product: string)

  function PathOf(r: MetricData): Path {
    Path(r.location, r.metric, r.category, r.product)
  }

  // ---------------------------------------------------------------------------
  // Reading one row

  /**
   * `row[name]?.trim()`. An absent key or a `null` value gives `undefined`,
   * which the skip test treats exactly like the empty string, so both are "".
   */
  function Field(row: Row, name: string): (r: string)
    ensures r == "" <==> name !in row || row[name].None? || AllSpaces(row[name].value)
    ensures r != "" ==> !IsSpace(r[0]) && !IsSpace(r[|r| - 1])
  {
    if name in row && row[name].Some? then Trim(row[name].value) else ""
  }

  /** `parseFloat(row.Total) || 0`: NaN (and zero) become 0. */
  function TotalOf(row: Row): (t: real)
    ensures ("Total" in row && row["Total"].Some? && ParseNum(row["Total"].value).Some?)
      ==> t == ParseNum(row["Total"].value).value
    ensures !("Total" in row && row["Total"].Some? && ParseNum(row["Total"].value).Some?) ==> t == 0.0
  {
    if "Total" in row && row["Total"].Some? then ParseNum(row["Total"].value).GetOr(0.0) else 0.0
  }

  /**
   * The month-column heuristic: the header contains '-' and contains "24" or
   * "25", each anywhere in it.
   */
  function IsMonthKey(key: string): (b: bool)
    ensures b <==> (exists x, y :: key == x + "-" + y)
                   && ((exists x, y :: key == x + "24" + y) || (exists x, y :: key == x + "25" + y))
  {
    IncludesSplit(key, "-");
    IncludesSplit(key, "24");
    IncludesSplit(key, "25");
    Includes(key, "-") && (Includes(key, "24") || Includes(key, "25"))
  }

  /** A month cell: '' or null gives null, otherwise `parseFloat`, with NaN giving null. */
  function NormalizeCell(cell: Option<string>): (v: Option<real>)
    ensures cell.None? ==> v.None?
    ensures cell == Some("") ==> v.None?
    ensures cell.Some? && cell.value != "" ==> v == ParseNum(cell.value)
  {
    match cell
    case None => None
    case Some(s) => if s == "" then None else ParseNum(s)
  }

  /** The `months` object built for a row. */
  function MonthsOf(row: Row): (m: MonthValues)
    ensures forall key :: key in m <==> key in row && IsMonthKey(key)
    ensures forall key :: key in m ==> m[key] == NormalizeCell(row[key])
  {
    map key | key in row && IsMonthKey(key) :: NormalizeCell(row[key])
  }

  /** The record a row contributes, or None when the row is skipped. */
  function RowRecord(row: Row): (r: Option<MetricData>)
    ensures r.None? <==> (|| Field(row, "Location") == "" || Field(row, "Category") == ""
                          || Field(row, "Product") == "" || Field(row, "Metric") == "")
    ensures r.Some? ==> r.value == MetricData(Field(row, "Location"), Field(row, "Category"),
                                              Field(row, "Product"), Field(row, "Metric"),
                                              MonthsOf(row), TotalOf(row))
  {
    var location := Field(row, "Location");
    var category := Field(row, "Category");
    var product := Field(row, "Product");
    var metric := Field(row, "Metric");
    if location == "" || category == "" || product == "" || metric == "" then None
    else Some(MetricData(location, category, product, metric, MonthsOf(row), TotalOf(row)))
  }

  // ---------------------------------------------------------------------------
  // The dictionary and its get-or-create steps

  function Lookup(t: Tree, p: Path): Option<MetricData> {
    if p.location in t && p.metric in t[p.location] && p.category in t[p.location][p.metric]
       && p.product in t[p.location][p.metric][p.category]
    then Some(t[p.location][p.metric][p.category][p.product])
    else None
  }

  /** `if (!parsedData[location]) parsedData[location] = {}` */
  function WithLocation(t: Tree, location: string): (r: Tree)
    ensures r.Keys == t.Keys + {location}
    ensures forall l :: l in t ==> r[l] == t[l]
    ensures location !in t ==> r[location] == map[]
  {
    if location in t then t else t[location := map[]]
  }

  /** `if (!parsedData[location][metric]) parsedData[location][metric] = {}` */
  function WithMetric(t: Tree, location: string, metric: string): (r: Tree)
    requires location in t
    ensures r.Keys == t.Keys
    ensures forall l :: l in t && l != location ==> r[l] == t[l]
    ensures r[location].Keys == t[location].Keys + {metric}
    ensures forall m :: m in t[location] ==> r[location][m] == t[location][m]
    ensures metric !in t[location] ==> r[location][metric] == map[]
  {
    if metric in t[location] then t else t[location := t[location][metric := map[]]]
  }

  /** `if (!parsedData[location][metric][category]) parsedData[location][metric][category] = {}` */
  function WithCategory(t: Tree, location: string, metric: string, category: string): (r: Tree)
    requires location in t && metric in t[location]
    ensures r.Keys == t.Keys
    ensures forall l :: l in t && l != location ==> r[l] == t[l]
    ensures r[location].Keys == t[location].Keys
    ensures forall m :: m in t[location] && m != metric ==> r[location][m] == t[location][m]
    ensures r[location][metric].Keys == t[location][metric].Keys + {category}
    ensures forall c :: c in t[location][metric] ==> r[location][metric][c] == t[location][metric][c]
    ensures category !in t[location][metric] ==> r[location][metric][category] == map[]
  {
    if category in t[location][metric] then t
    else t[location := t[location][metric := t[location][metric][category := map[]]]]
  }

  /** `parsedData[location][metric][category][product] = record`: the leaf is overwritten. */
  function WithProduct(t: Tree, r: MetricData): (u: Tree)
    requires r.location in t && r.metric in t[r.location] && r.category in t[r.location][r.metric]
    ensures Lookup(u, PathOf(r)) == Some(r)
    ensures forall p :: p != PathOf(r) ==> Lookup(u, p) == Lookup(t, p)
  {
    var l, m, c := r.location, r.metric, r.category;
    t[l := t[l][m := t[l][m][c := t[l][m][c][r.product := r]]]]
  }

  /** What processing one valid record does to the dictionary. */
  function Insert(t: Tree, r: MetricData): Tree {
    var t1 := WithLocation(t, r.location);
    var t2 := WithMetric(t1, r.location, r.metric);
    var t3 := WithCategory(t2, r.location, r.metric, r.category);
    WithProduct(t3, r)
  }

  /** What processing one row does: a skipped row leaves the dictionary as it was. */
  function Step(t: Tree, row: Row): Tree {
    match RowRecord(row)
    case None => t
    case Some(r) => Insert(t, r)
  }

  /** The dictionary `parseCSV` returns for the given records, processed in order. */
  function Parse(rows: seq<Row>): Tree {
    if rows == [] then map[] else Step(Parse(rows[..|rows| - 1]), rows[|rows| - 1])
  }

  // ---------------------------------------------------------------------------
  // The imperative transform

  /** The dictionary `parsedData` that `parseCSV` fills in place. */
  class ParsedData {
    var data: Tree

    constructor ()
      ensures data == map[]
    {
      data := map[];
    }

    method EnsureLocation(location: string)
      modifies this
      ensures data == WithLocation(old(data), location)
    {
      if location !in data {
        data := data[location := map[]];
      }
    }

    method EnsureMetric(location: string, metric: string)
      requires location in data
      modifies this
      ensures data == WithMetric(old(data), location, metric)
    {
      if metric !in data[location] {
        data := data[location := data[location][metric := map[]]];
      }
    }

    method EnsureCategory(location: string, metric: string, category: string)
      requires location in data && metric in data[location]
      modifies this
      ensures data == WithCategory(old(data), location, metric, category)
    {
      if category !in data[location][metric] {
        data := data[location := data[location][metric := data[location][metric][category := map[]]]];
      }
    }

    method SetProduct(record: MetricData)
      requires record.location in data && record.metric in data[record.location]
      requires record.category in data[record.location][record.metric]
      modifies this
      ensures data == WithProduct(old(data), record)
    {
      var l, m, c := record.location, record.metric, record.category;
      data := data[l := data[l][m := data[l][m][c := data[l][m][c][record.product := record]]]];
    }

    /** The body of the `forEach` over the records. */
    method AddRow(row: Row)
      modifies this
      ensures data == Step(old(data), row)
    {
      var location := Field(row, "Location");
      var category := Field(row, "Category");
      var product := Field(row, "Product");
      var metric := Field(row, "Metric");
      var total := TotalOf(row);
      if location == "" || category == "" || product == "" || metric == "" {
        return;
      }
      EnsureLocation(location);
      EnsureMetric(location, metric);
      EnsureCategory(location, metric, category);
      var months := BuildMonths(row);
      SetProduct(MetricData(location, category, product, metric, months, total));
    }
  }

  /** The month cells of the columns in `done`. */
  function MonthsAmong(row: Row, done: set<string>): MonthValues
    requires done <= row.Keys
  {
    map key | key in done && IsMonthKey(key) :: NormalizeCell(row[key])
  }

  lemma {:induction false} MonthsAmongAdd(row: Row, done: set<string>, key: string)
    requires done <= row.Keys && key in row
    ensures MonthsAmong(row, done + {key})
         == if IsMonthKey(key) then MonthsAmong(row, done)[key := NormalizeCell(row[key])] else MonthsAmong(row, done)
  {
  }

  /** The inner `forEach` over the row's keys that fills `months`. */
  method BuildMonths(row: Row) returns (months: MonthValues)
    ensures months == MonthsOf(row)
  {
    months := map[];
    var keys := row.Keys;
    while keys != {}
      invariant keys <= row.Keys
      invariant months == MonthsAmong(row, row.Keys - keys)
      decreases keys
    {
      var key :| key in keys;
      MonthsAmongAdd(row, row.Keys - keys, key);
      if IsMonthKey(key) {
        var value := row[key];
        if value == None || value == Some("") {
          months := months[key := None];
        } else {
          months := months[key := ParseNum(value.value)];
        }
      }
      assert row.Keys - (keys - {key}) == (row.Keys - keys) + {key};
      keys := keys - {key};
    }
  }

  /** `parseCSV` from the reader's records on: one pass, one row at a time. */
  method ParseCSV(rows: seq<Row>) returns (result: Tree)
    ensures result == Parse(rows)
  {
    var parsed := new ParsedData();
    var i := 0;
    while i < |rows|
      invariant 0 <= i <= |rows|
      invariant parsed.data == Parse(rows[..i])
    {
      assert rows[..i + 1][..i] == rows[..i];
      parsed.AddRow(rows[i]);
      i := i + 1;
    }
    assert rows[..|rows|] == rows;
    result := parsed.data;
  }

  // ---------------------------------------------------------------------------
  // What the transform promises

  /** The records of the rows that are not skipped, in row order. */
  function Records(rows: seq<Row>): (rs: seq<MetricData>)
    ensures |rs| <= |rows|
  {
    if rows == [] then [] else Records(rows[..|rows| - 1]) + Kept(rows[|rows| - 1])
  }

  /** The record of one row as a list: empty when the row is skipped. */
  function Kept(row: Row): (rs: seq<MetricData>)
    ensures |rs| <= 1
  {
    match RowRecord(row)
    case Some(r) => [r]
    case None => []
  }

  /** The dictionary obtained by inserting the given records in order. */
  function Build(records: seq<MetricData>): Tree {
    if records == [] then map[] else Insert(Build(records[..|records| - 1]), records[|records| - 1])
  }

  /** The last of `records` stored under path `p`, if any. */
  function LastWith(records: seq<MetricData>, p: Path): (r: Option<MetricData>)
    ensures r.Some? ==> r.value in records && PathOf(r.value) == p
  {
    if records == [] then None
    else if PathOf(records[|records| - 1]) == p then Some(records[|records| - 1])
    else LastWith(records[..|records| - 1], p)
  }

  predicate HasMetric(t: Tree, location: string, metric: string) {
    location in t && metric in t[location]
  }

  predicate HasCategory(t: Tree, location: string, metric: string, category: string) {
    HasMetric(t, location, metric) && category in t[location][metric]
  }

  /** The get-or-create steps add empty levels only, so no stored record is lost. */
  lemma {:induction false} GetOrCreateKeepsRecords(t: Tree, r: MetricData, p: Path)
    ensures var t3 := WithCategory(WithMetric(WithLocation(t, r.location), r.location, r.metric),
                                   r.location, r.metric, r.category);
            Lookup(t3, p) == Lookup(t, p)
  {
    var t1 := WithLocation(t, r.location);
    var t2 := WithMetric(t1, r.location, r.metric);
    LocationKeepsRecords(t, r.location, p);
    MetricKeepsRecords(t1, r.location, r.metric, p);
    CategoryKeepsRecords(t2, r.location, r.metric, r.category, p);
  }

  lemma {:induction false} LocationKeepsRecords(t: Tree, l: string, p: Path)
    ensures Lookup(WithLocation(t, l), p) == Lookup(t, p)
  {
  }

  lemma {:induction false} MetricKeepsRecords(t: Tree, l: string, m: string, p: Path)
    requires l in t
    ensures Lookup(WithMetric(t, l, m), p) == Lookup(t, p)
  {
  }

  lemma {:induction false} CategoryKeepsRecords(t: Tree, l: string, m: string, c: string, p: Path)
    requires l in t && m in t[l]
    ensures Lookup(WithCategory(t, l, m, c), p) == Lookup(t, p)
  {
  }

  /** Processing a valid record stores it at its path and leaves every other path as it was. */
  lemma {:induction false} InsertLookup(t: Tree, r: MetricData, p: Path)
    ensures Lookup(Insert(t, r), p) == if p == PathOf(r) then Some(r) else Lookup(t, p)
  {
    GetOrCreateKeepsRecords(t, r, p);
  }

  /** Processing a valid record creates exactly the levels on its own path. */
  lemma {:induction false} InsertLevels(t: Tree, r: MetricData, l: string, m: string, c: string)
    ensures l in Insert(t, r) <==> l in t || l == r.location
    ensures HasMetric(Insert(t, r), l, m) <==> HasMetric(t, l, m) || (l == r.location && m == r.metric)
    ensures HasCategory(Insert(t, r), l, m, c)
        <==> HasCategory(t, l, m, c) || (l == r.location && m == r.metric && c == r.category)
  {
    var t1 := WithLocation(t, r.location);
    var t2 := WithMetric(t1, r.location, r.metric);
    var t3 := WithCategory(t2, r.location, r.metric, r.category);
    assert HasMetric(t1, l, m) <==> HasMetric(t, l, m);
    assert HasCategory(t1, l, m, c) <==> HasCategory(t, l, m, c);
    assert HasMetric(t2, l, m) <==> HasMetric(t1, l, m) || (l == r.location && m == r.metric);
    assert HasCategory(t2, l, m, c) <==> HasCategory(t1, l, m, c);
    assert HasMetric(t3, l, m) <==> HasMetric(t2, l, m);
    assert HasCategory(t3, l, m, c)
       <==> HasCategory(t2, l, m, c) || (l == r.location && m == r.metric && c == r.category);
    ProductKeepsLevels(t3, r, l, m, c);
  }

  lemma {:induction false} ProductKeepsLevels(t: Tree, r: MetricData, l: string, m: string, c: string)
    requires r.location in t && r.metric in t[r.location] && r.category in t[r.location][r.metric]
    ensures l in WithProduct(t, r) <==> l in t
    ensures HasMetric(WithProduct(t, r), l, m) <==> HasMetric(t, l, m)
    ensures HasCategory(WithProduct(t, r), l, m, c) <==> HasCategory(t, l, m, c)
  {
  }

  /** Parsing rows is inserting the records of the rows that are not skipped. */
  lemma {:induction false} ParseIsBuild(rows: seq<Row>)
    ensures Parse(rows) == Build(Records(rows))
  {
    if rows != [] {
      var init, last := rows[..|rows| - 1], rows[|rows| - 1];
      ParseIsBuild(init);
      BuildStep(Records(init), last);
    }
  }

  /** Adding one row to the list adds its record, if any, to the build. */
  lemma {:induction false} BuildStep(records: seq<MetricData>, row: Row)
    ensures Build(records + Kept(row)) == Step(Build(records), row)
  {
    match RowRecord(row)
    case Some(r) =>
      var rs := records + [r];
      assert Kept(row) == [r];
      assert rs[..|rs| - 1] == records;
    case None =>
      assert Kept(row) == [];
      assert records + [] == records;
  }

  /** After parsing, a path holds the last record written to it. */
  lemma {:induction false} BuildLookup(records: seq<MetricData>, p: Path)
    ensures Lookup(Build(records), p) == LastWith(records, p)
  {
    if records != [] {
      BuildLookup(records[..|records| - 1], p);
      InsertLookup(Build(records[..|records| - 1]), records[|records| - 1], p);
    }
  }

  /**
   * The whole content of the parsed dictionary: the record under a path is the
   * last non-skipped row with that path; no value is summed or merged.
   */
  lemma {:induction false} ParseLookup(rows: seq<Row>, p: Path)
    ensures Lookup(Parse(rows), p) == LastWith(Records(rows), p)
  {
    ParseIsBuild(rows);
    BuildLookup(Records(rows), p);
  }

  /** The locations of the dictionary are exactly those of the kept records. */
  lemma {:induction false} BuildLocations(records: seq<MetricData>, l: string)
    ensures l in Build(records) <==> exists r :: r in records && r.location == l
  {
    if records != [] {
      var init, last := records[..|records| - 1], records[|records| - 1];
      BuildLocations(init, l);
      InsertLevels(Build(init), last, l, "", "");
      MembersOfSnoc(records);
    }
  }

  /** The metrics under a location are exactly those of the kept records. */
  lemma {:induction false} BuildMetrics(records: seq<MetricData>, l: string, m: string)
    ensures HasMetric(Build(records), l, m) <==> exists r :: r in records && r.location == l && r.metric == m
  {
    if records != [] {
      var init, last := records[..|records| - 1], records[|records| - 1];
      BuildMetrics(init, l, m);
      InsertLevels(Build(init), last, l, m, "");
      MembersOfSnoc(records);
    }
  }

  /** The categories under a metric are exactly those of the kept records. */
  lemma {:induction false} BuildCategories(records: seq<MetricData>, l: string, m: string, c: string)
    ensures HasCategory(Build(records), l, m, c)
        <==> exists r :: r in records && r.location == l && r.metric == m && r.category == c
  {
    if records != [] {
      var init, last := records[..|records| - 1], records[|records| - 1];
      BuildCategories(init, l, m, c);
      InsertLevels(Build(init), last, l, m, c);
      MembersOfSnoc(records);
    }
  }

  lemma {:induction false} MembersOfSnoc(records: seq<MetricData>)
    requires records != []
    ensures forall r :: r in records <==> r in records[..|records| - 1] || r == records[|records| - 1]
  {
    assert records == records[..|records| - 1] + [records[|records| - 1]];
  }

  /**
   * No location, metric or category key exists unless some row that was kept
   * names it: skipped rows create nothing.
   */
  lemma {:induction false} ParseLevels(rows: seq<Row>, l: string, m: string, c: string)
    ensures l in Parse(rows) <==> exists r :: r in Records(rows) && r.location == l
    ensures HasMetric(Parse(rows), l, m) <==> exists r :: r in Records(rows) && r.location == l && r.metric == m
    ensures HasCategory(Parse(rows), l, m, c)
        <==> exists r :: r in Records(rows) && r.location == l && r.metric == m && r.category == c
  {
    ParseIsBuild(rows);
    BuildLocations(Records(rows), l);
    BuildMetrics(Records(rows), l, m);
    BuildCategories(Records(rows), l, m, c);
  }

  /** Removing a skipped row changes nothing in the list of kept records. */
  lemma {:induction false} RecordsWithoutSkipped(pre: seq<Row>, bad: Row, post: seq<Row>)
    requires RowRecord(bad).None?
    ensures Records(pre + [bad] + post) == Records(pre + post)
  {
    if post == [] {
      assert (pre + [bad] + post)[..|pre + [bad] + post| - 1] == pre;
      assert pre + post == pre;
    } else {
      var init, last := post[..|post| - 1], post[|post| - 1];
      RecordsWithoutSkipped(pre, bad, init);
      assert (pre + [bad] + post)[..|pre + [bad] + post| - 1] == pre + [bad] + init;
      assert (pre + post)[..|pre + post| - 1] == pre + init;
    }
  }

  /** A row with an empty or missing identity field leaves no trace in the result. */
  lemma {:induction false} SkippedRowLeavesNoTrace(pre: seq<Row>, bad: Row, post: seq<Row>)
    requires Field(bad, "Location") == "" || Field(bad, "Category") == ""
          || Field(bad, "Product") == "" || Field(bad, "Metric") == ""
    ensures Parse(pre + [bad] + post) == Parse(pre + post)
  {
    RecordsWithoutSkipped(pre, bad, post);
    ParseIsBuild(pre + [bad] + post);
    ParseIsBuild(pre + post);
  }

  /**
   * Last row wins: a kept row's record survives when no later kept row has the
   * same location, metric, category and product. What every path holds in
   * general is stated by `ParseLookup`.
   */
  lemma {:induction false} LastRowWins(rows: seq<Row>, j: nat)
    requires j < |rows| && RowRecord(rows[j]).Some?
    requires forall k :: j < k < |rows| && RowRecord(rows[k]).Some?
               ==> PathOf(RowRecord(rows[k]).value) != PathOf(RowRecord(rows[j]).value)
    ensures Lookup(Parse(rows), PathOf(RowRecord(rows[j]).value)) == RowRecord(rows[j])
  {
    var init, last := rows[..|rows| - 1], rows[|rows| - 1];
    var p := PathOf(RowRecord(rows[j]).value);
    if j == |rows| - 1 {
      InsertLookup(Parse(init), RowRecord(last).value, p);
    } else {
      LastRowWins(init, j);
      if RowRecord(last).Some? {
        InsertLookup(Parse(init), RowRecord(last).value, p);
      }
    }
  }

  /** The record stored for a valid row carries the row's trimmed identity, months and total. */
  lemma {:induction false} StoredRecordOfRow(t: Tree, row: Row)
    requires RowRecord(row).Some?
    ensures var p := Path(Field(row, "Location"), Field(row, "Metric"), Field(row, "Category"), Field(row, "Product"));
            Lookup(Step(t, row), p)
              == Some(MetricData(p.location, p.category, p.product, p.metric, MonthsOf(row), TotalOf(row)))
  {
    InsertLookup(t, RowRecord(row).value, PathOf(RowRecord(row).value));
  }

  /** Month cells: empty and null give null, text that is not a number gives null, "0" gives 0. */
  lemma {:induction false} MonthCellCases()
    ensures NormalizeCell(None) == None
    ensures NormalizeCell(Some("")) == None
    ensures NormalizeCell(Some("abc")) == None
    ensures NormalizeCell(Some("0")) == Some(0.0)
  {
    ParseNumBasics();
  }

  lemma {:induction false} LacksChar(s: string, c: char)
    requires forall k :: 0 <= k < |s| ==> s[k] != c
    ensures !Includes(s, [c])
  {
    forall i: nat
      ensures !OccursAt(s, [c], i)
    {
      if i + 1 <= |s| {
        assert s[i..i + 1][0] == s[i];
      }
    }
  }

  /** The identity and total columns are never taken for month columns. */
  lemma {:induction false} FixedColumnsAreNotMonths()
    ensures !IsMonthKey("Location") && !IsMonthKey("Category") && !IsMonthKey("Product")
    ensures !IsMonthKey("Metric") && !IsMonthKey("Total")
  {
    LacksChar("Location", '-');
    LacksChar("Category", '-');
    LacksChar("Product", '-');
    LacksChar("Metric", '-');
    LacksChar("Total", '-');
  }

  /** The heuristic is a substring test: any header with '-' and "24" is a month column. */
  lemma {:induction false} SubstringHeuristic()
    ensures IsMonthKey("SKU-24X")
  {
    assert OccursAt("SKU-24X", "-", 3);
    assert OccursAt("SKU-24X", "24", 4);
  }
}

=== FILE: growth.dfy ===
/**
 * The `GrowthIndicator` of MetricsTable.tsx: the percentage change from the
 * previous month's value to the current one, shown as "no data", "neutral" or
 * an up/down arrow with the size of the change.
 */
module Growth {
  import opened Wrappers
  import opened Numbers

  /** What the indicator shows. */
  datatype Indicator =
    | NoData                              // a grey dash: a value is missing or zero
    | Neutral                             // a grey "0%": the change is below a tenth of a percent
    | Change(up: bool, magnitude: real)   // a green up or red down arrow and the size of the change

  /** JavaScript truthiness of a `number | null`: null and 0 are false. */
  predicate Truthy(v: Option<real>) {
    v.Some? && v.value != 0.0
  }

  /** The percentage change `((current - previous) / previous) * 100`. */
  function GrowthPercent(current: real, previous: real): real
    requires previous != 0.0
  {
    (current - previous) / previous * 100.0
  }

  /** The decision of `GrowthIndicator`. */
  function IndicatorOf(current: Option<real>, previous: Option<real>): (r: Indicator)
    ensures r.Change? ==> r.magnitude >= 0.1
    ensures r.NoData? <==> !Truthy(current) || !Truthy(previous)
  {
    if !Truthy(current) || !Truthy(previous) then NoData
    else
      var growth := GrowthPercent(current.value, previous.value);
      if Abs(growth) < 0.1 then Neutral
      else Change(growth > 0.0, Abs(growth))
  }

  /** The text next to the icon; the magnitude is shown to one place, with no sign. */
  function Label(r: Indicator): (s: string)
    ensures s != []
    ensures s[|s| - 1] == '%' <==> !r.NoData?
    ensures r.NoData? ==> s == "-"
    ensures r.Neutral? ==> s == "0%"
  {
    match r
    case NoData => "-"
    case Neutral => "0%"
    case Change(_, magnitude) => Fixed(magnitude, 1) + "%"
  }

  // ---------------------------------------------------------------------------
  // What the indicator means

  /**
   * Against a positive previous value, the arrow points up exactly when the
   * value rose, and the indicator is neutral exactly when the change is below
   * a thousandth of the previous value.
   */
  lemma {:induction false} DirectionFromPositive(current: real, previous: real)
    requires current != 0.0 && previous > 0.0
    ensures IndicatorOf(Some(current), Some(previous)).Neutral?
        <==> -previous / 1000.0 < current - previous < previous / 1000.0
    ensures IndicatorOf(Some(current), Some(previous)).Change? ==>
              (IndicatorOf(Some(current), Some(previous)).up <==> current > previous)
  {
    var g := GrowthPercent(current, previous);
    assert IndicatorOf(Some(current), Some(previous))
        == if Abs(g) < 0.1 then Neutral else Change(g > 0.0, Abs(g));
    ScaledChange(current, previous);
    NeutralBand(g, current - previous, previous);
    ScaleCompare(0.0, g, previous);
    assert Abs(g) < 0.1 <==> -0.1 < g < 0.1;
  }

  /** A percentage below a tenth in size is a change below a thousandth of a positive base. */
  lemma {:induction false} NeutralBand(g: real, change: real, base: real)
    requires base > 0.0 && g * base == change * 100.0
    ensures -0.1 < g < 0.1 <==> -base / 1000.0 < change < base / 1000.0
  {
    ScaleCompare(g, 0.1, base);
    ScaleCompare(-0.1, g, base);
    assert g < 0.1 <==> change * 100.0 < 0.1 * base;
    assert -0.1 < g <==> -0.1 * base < change * 100.0;
  }

  lemma {:induction false} ScaleCompare(a: real, b: real, p: real)
    requires p > 0.0
    ensures a < b <==> a * p < b * p
  {
    assert b * p - a * p == (b - a) * p;
  }

  /**
   * Against a negative previous value the neutral band is the same thousandth
   * of its size, and the arrow is inverted: it points up when the value fell.
   */
  lemma {:induction false} DirectionFromNegative(current: real, previous: real)
    requires current != 0.0 && previous < 0.0
    ensures IndicatorOf(Some(current), Some(previous)).Neutral?
        <==> previous / 1000.0 < current - previous < -previous / 1000.0
    ensures IndicatorOf(Some(current), Some(previous)).Change? ==>
              (IndicatorOf(Some(current), Some(previous)).up <==> current < previous)
  {
    var g := GrowthPercent(current, previous);
    assert IndicatorOf(Some(current), Some(previous))
        == if Abs(g) < 0.1 then Neutral else Change(g > 0.0, Abs(g));
    ScaledChange(current, previous);
    assert -g * -previous == g * previous;
    NeutralBand(-g, current - previous, -previous);
    assert Abs(g) < 0.1 <==> -0.1 < -g < 0.1;
    ScaleCompare(0.0, g, -previous);
    assert g * -previous == -(g * previous);
  }

  lemma {:induction false} ScaledChange(current: real, previous: real)
    requires previous != 0.0
    ensures GrowthPercent(current, previous) * previous == (current - previous) * 100.0
  {
    var d := current - previous;
    assert d / previous * previous == d;
  }

  /**
   * An arrow with its magnitude gives back the current value from the
   * previous one: `current == previous * (1 ± magnitude / 100)`.
   */
  lemma {:induction false} ChangeReconstructs(current: real, previous: real)
    requires IndicatorOf(Some(current), Some(previous)).Change?
    ensures var r := IndicatorOf(Some(current), Some(previous));
      current == previous + previous * (if r.up then r.magnitude else -r.magnitude) / 100.0
  {
    var g := GrowthPercent(current, previous);
    ScaledChange(current, previous);
    var r := IndicatorOf(Some(current), Some(previous));
    assert (if r.up then r.magnitude else -r.magnitude) == g;
    assert previous * g / 100.0 == current - previous;
  }

  /**
   * An arrow's label is the magnitude to one place followed by "%": the figure
   * starts with a digit (there is no sign), and reads back within 0.05 of the
   * magnitude.
   */
  lemma {:induction false} ChangeLabel(up: bool, magnitude: real) returns (figure: string)
    requires magnitude >= 0.1
    ensures Label(Change(up, magnitude)) == figure + "%"
    ensures figure != [] && IsDigit(figure[0])
    ensures ParseNum(figure).Some? && Abs(ParseNum(figure).value - magnitude) <= 0.5 / Pow10(1) as real
  {
    figure := Fixed(magnitude, 1);
    FixedRoundTrip(magnitude, 1);
    RoundedIsClose(magnitude, 1);
  }

  // ---------------------------------------------------------------------------
  // Examples

  /** From 100 to 110 is a rise of "10.0%"; from 110 back to 100 a fall of "9.1%". */
  lemma {:induction false} TenPercentRise()
    ensures IndicatorOf(Some(110.0), Some(100.0)) == Change(true, 10.0)
    ensures Label(Change(true, 10.0)) == "10.0%"
  {
    assert GrowthPercent(110.0, 100.0) == 10.0;
    TenthsFigure(10.0, 100, "10.0");
  }

  lemma {:induction false} NinePointOneFall()
    ensures IndicatorOf(Some(100.0), Some(110.0)) == Change(false, 100.0 / 11.0)
    ensures Label(Change(false, 100.0 / 11.0)) == "9.1%"
  {
    assert GrowthPercent(100.0, 110.0) == -100.0 / 11.0;
    TenthsFigure(100.0 / 11.0, 91, "9.1");
  }

  /** A change of a twentieth of a percent is neutral; a zero value shows no data. */
  lemma {:induction false} SmallChangeIsNeutral()
    ensures IndicatorOf(Some(2000.5), Some(2000.0)) == Neutral
    ensures IndicatorOf(Some(0.0), Some(2000.0)) == NoData
    ensures IndicatorOf(Some(2000.0), None) == NoData
  {
    assert GrowthPercent(2000.5, 2000.0) == 0.025;
  }

  /** `x.toFixed(1)` when `n` is `x` in tenths, rounded. */
  lemma {:induction false} TenthsFigure(x: real, n: nat, text: string)
    requires x >= 0.0 && n as real <= 10.0 * x + 0.5 < n as real + 1.0
    requires 10 <= n < 1000
    requires text == (if n < 100 then [] else [DigitChar(n / 100)]) + [DigitChar(n / 10 % 10), '.', DigitChar(n % 10)]
    ensures Fixed(x, 1) == text
  {
    assert Shift(x, 1) == 10.0 * x;
    assert RoundedUnits(x, 1) == n;
    var high := n / 10;
    assert DropDigits(n, 1) == high;
    assert LowDigits(n, 1) == LowDigits(n / 10, 0) + [DigitChar(n % 10)];
    if high < 10 {
      assert NatToString(high) == [DigitChar(high)];
    } else {
      assert NatToString(high / 10) == [DigitChar(high / 10)];
      assert high / 10 == n / 100;
    }
  }
}

=== FILE: inr_format.dfy ===
/**
 * `formatINRValue` of csvParser.ts: a value in rupees shown with the Indian
 * tier suffixes crore (10,000,000), lakh (100,000) and thousand.
 */
module InrFormat {
  import opened Wrappers
  import opened Numbers

  const Rupee: char := '\U{20B9}'

  /** The tiers of `formatINRValue`, largest first. */
  datatype Tier = Crore | Lakh | Thousand | Units

  /** The if/else chain: the first tier whose threshold the value reaches. */
  function TierOf(value: real): (t: Tier)
    ensures InTier(value, t)
  {
    if value >= 10000000.0 then Crore
    else if value >= 100000.0 then Lakh
    else if value >= 1000.0 then Thousand
    else Units
  }

  /** `formatINRValue(value)`: the rupee sign, the value in the tier's unit to the tier's places, the suffix. */
  function FormatINR(value: real): (s: string)
    ensures |s| >= 2 && s[0] == Rupee
  {
    var t := TierOf(value);
    [Rupee] + Fixed(value / Divisor(t), Places(t)) + Suffix(t)
  }

  /** The range of values each tier covers, read independently of the if/else chain. */
  predicate InTier(value: real, t: Tier) {
    match t
    case Crore => value >= 10000000.0
    case Lakh => 100000.0 <= value < 10000000.0
    case Thousand => 1000.0 <= value < 100000.0
    case Units => value < 1000.0
  }

  function Divisor(t: Tier): real {
    match t
    case Crore => 10000000.0
    case Lakh => 100000.0
    case Thousand => 1000.0
    case Units => 1.0
  }

  function Places(t: Tier): nat {
    if t == Units then 0 else 1
  }

  function Suffix(t: Tier): string {
    match t
    case Crore => "Cr"
    case Lakh => "L"
    case Thousand => "K"
    case Units => ""
  }

  lemma {:induction false} TiersAreExclusive(value: real, t: Tier, u: Tier)
    requires InTier(value, t) && InTier(value, u)
    ensures t == u
  {
  }

  predicate EndsWith(s: string, suffix: string) {
    |suffix| <= |s| && s[|s| - |suffix|..] == suffix
  }

  /** The suffix shown is "Cr", "L" or "K" exactly in the matching range; below 1,000 the text ends in a digit. */
  lemma {:induction false} SuffixByRange(value: real)
    ensures EndsWith(FormatINR(value), "Cr") <==> value >= 10000000.0
    ensures EndsWith(FormatINR(value), "L") <==> 100000.0 <= value < 10000000.0
    ensures EndsWith(FormatINR(value), "K") <==> 1000.0 <= value < 100000.0
    ensures IsDigit(FormatINR(value)[|FormatINR(value)| - 1]) <==> value < 1000.0
  {
    var s := FormatINR(value);
    var t := TierOf(value);
    var d := Fixed(value / Divisor(t), Places(t));
    assert s == [Rupee] + d + Suffix(t);
    assert EndsWith(s, Suffix(t));
    var last := s[|s| - 1];
    if t == Units {
      assert last == d[|d| - 1];
    } else {
      assert last == Suffix(t)[|Suffix(t)| - 1];
    }
    EndsWithLast(s, "Cr");
    EndsWithLast(s, "L");
    EndsWithLast(s, "K");
  }

  lemma {:induction false} EndsWithLast(s: string, suffix: string)
    requires suffix != []
    ensures EndsWith(s, suffix) ==> s[|s| - 1] == suffix[|suffix| - 1]
  {
    if EndsWith(s, suffix) {
      assert s[|s| - |suffix|..][|suffix| - 1] == s[|s| - 1];
    }
  }

  /**
   * The figure shown reads back (with `parseFloat`) as the value in the tier's
   * unit, to within half of the last shown place.
   */
  lemma {:induction false} FigureReadsBack(value: real) returns (t: Tier, figure: string)
    ensures InTier(value, t)
    ensures FormatINR(value) == [Rupee] + figure + Suffix(t)
    ensures ParseNum(figure).Some?
    ensures Abs(ParseNum(figure).value - value / Divisor(t)) <= 0.5 / Pow10(Places(t)) as real
  {
    t := TierOf(value);
    figure := Fixed(value / Divisor(t), Places(t));
    FixedRoundTrip(value / Divisor(t), Places(t));
    RoundedIsClose(value / Divisor(t), Places(t));
  }

  /** One and a half crore, two and a half lakh, five thousand and 999 rupees. */
  lemma {:induction false} FormatCrore()
    ensures FormatINR(15000000.0) == [Rupee] + "1.5Cr"
  {
    TenthsExample(15000000.0, Crore, 15, "1.5");
    assert [Rupee] + "1.5" + "Cr" == [Rupee] + "1.5Cr";
  }

  lemma {:induction false} FormatLakh()
    ensures FormatINR(250000.0) == [Rupee] + "2.5L"
  {
    TenthsExample(250000.0, Lakh, 25, "2.5");
    assert [Rupee] + "2.5" + "L" == [Rupee] + "2.5L";
  }

  lemma {:induction false} FormatThousand()
    ensures FormatINR(5000.0) == [Rupee] + "5.0K"
  {
    TenthsExample(5000.0, Thousand, 50, "5.0");
    assert [Rupee] + "5.0" + "K" == [Rupee] + "5.0K";
  }

  lemma {:induction false} FormatUnits()
    ensures FormatINR(999.0) == [Rupee] + "999"
  {
    FixedExample(999.0, 0, 999, "999");
    InTierShape(999.0, Units, 999.0, "999");
  }

  lemma {:induction false} InTierShape(value: real, t: Tier, scaled: real, figure: string)
    requires InTier(value, t) && scaled == value / Divisor(t) && Fixed(scaled, Places(t)) == figure
    ensures FormatINR(value) == [Rupee] + figure + Suffix(t)
  {
    assert TierOf(value) == t;
  }

  /** A value that is a two-digit number of tenths of its tier's unit. */
  lemma {:induction false} TenthsExample(value: real, t: Tier, n: nat, text: string)
    requires t != Units && InTier(value, t) && 10 <= n < 100
    requires value / Divisor(t) == n as real / 10.0
    requires text == [DigitChar(n / 10), '.', DigitChar(n % 10)]
    ensures FormatINR(value) == [Rupee] + text + Suffix(t)
  {
    var x := value / Divisor(t);
    OnePlace(n, text);
    FixedExample(x, 1, n, text);
    InTierShape(value, t, x, text);
  }

  /** A two-digit number of tenths, written with one decimal place. */
  lemma {:induction false} OnePlace(n: nat, text: string)
    requires 10 <= n < 100
    requires text == [DigitChar(n / 10), '.', DigitChar(n % 10)]
    ensures FixedDigits(n, 1) == text
  {
    assert DropDigits(n, 1) == n / 10;
    assert NatToString(n / 10) == [DigitChar(n / 10)];
    assert LowDigits(n, 1) == LowDigits(n / 10, 0) + [DigitChar(n % 10)];
  }

  lemma {:induction false} FixedExample(x: real, f: nat, n: nat, text: string)
    requires x >= 0.0 && f <= 1
    requires (if f == 0 then x else 10.0 * x) == n as real
    requires text == FixedDigits(n, f)
    ensures Fixed(x, f) == text
  {
    assert Shift(x, f) == n as real;
    assert RoundedUnits(x, f) == n;
  }
}

=== FILE: metrics_table.dfy ===
/**
 * The cell rules of MetricsTable.tsx: which categories are expanded, whether a
 * metric is shown in rupees, and what each category, product and totals cell
 * shows for a month column, including when a growth indicator appears.
 */
module MetricsTable {
  import opened Wrappers
  import opened Strings
  import opened Numbers
  import opened CsvParser
  import opened MonthColumns
  import opened InrFormat
  import opened Growth
  import opened TableTotals

  // ---------------------------------------------------------------------------
  // Expanded categories

  /** The component state `expandedCategories`. */
  class TableState {
    var expanded: set<string>

    constructor()
      ensures expanded == {}
    {
      expanded := {};
    }

    /** `toggleCategory`: copy the set, delete the category if present, otherwise add it, store the copy. */
    method ToggleCategory(category: string)
      modifies this
      ensures expanded == Toggled(old(expanded), category)
    {
      var newExpanded := expanded;
      if category in newExpanded {
        newExpanded := newExpanded - {category};
      } else {
        newExpanded := newExpanded + {category};
      }
      expanded := newExpanded;
    }
  }

  /** The set after toggling `category`. */
  function Toggled(expanded: set<string>, category: string): set<string> {
    if category in expanded then expanded - {category} else expanded + {category}
  }

  /** Toggling flips the category and leaves every other category as it was. */
  lemma {:induction false} ToggleFlips(expanded: set<string>, category: string)
    ensures category in Toggled(expanded, category) <==> category !in expanded
    ensures forall other :: other != category ==> (other in Toggled(expanded, category) <==> other in expanded)
  {
  }

  /** Toggling the same category twice restores the set. */
  lemma {:induction false} ToggleTwice(expanded: set<string>, category: string)
    ensures Toggled(Toggled(expanded, category), category) == expanded
  {
    if category in expanded {
      assert expanded - {category} + {category} == expanded;
    } else {
      assert expanded + {category} - {category} == expanded;
    }
  }

  // ---------------------------------------------------------------------------
  // Revenue metrics

  /** The words that mark a metric as an amount of money. */
  const RevenueWords: seq<string> := ["sales", "revenue", "value", "amount", "vat"]

  /**
   * `isRevenueMetric`: the lower-cased name contains one of five words. A
   * metric is a revenue metric exactly when its lower-cased name is some
   * text, one of the words, and some more text.
   */
  function IsRevenueMetric(selectedMetric: string): (b: bool)
    ensures b <==> exists w, a, c :: w in RevenueWords && Lower(selectedMetric) == a + w + c
  {
    MentionsRevenueWord(Lower(selectedMetric))
  }

  /** `name.includes(w)` for one of the five words, `name` being already lower-cased. */
  function MentionsRevenueWord(name: string): (b: bool)
    ensures b <==> exists w, a, c :: w in RevenueWords && name == a + w + c
  {
    IncludesSplit(name, "sales");
    IncludesSplit(name, "revenue");
    IncludesSplit(name, "value");
    IncludesSplit(name, "amount");
    IncludesSplit(name, "vat");
    Includes(name, "sales") || Includes(name, "revenue") || Includes(name, "value")
      || Includes(name, "amount") || Includes(name, "vat")
  }

  /** Letter case does not matter. */
  lemma {:induction false} RevenueIgnoresCase(selectedMetric: string)
    ensures IsRevenueMetric(Lower(selectedMetric)) == IsRevenueMetric(selectedMetric)
  {
    LowerIdempotent(selectedMetric);
  }

  /** A name that contains a revenue metric's name is a revenue metric too. */
  lemma {:induction false} RevenueWithin(before: string, selectedMetric: string, after: string)
    requires IsRevenueMetric(selectedMetric)
    ensures IsRevenueMetric(before + selectedMetric + after)
  {
    var name := Lower(selectedMetric);
    LowerConcat(before, selectedMetric);
    LowerConcat(before + selectedMetric, after);
    assert Lower(before + selectedMetric + after) == Lower(before) + name + Lower(after);
    if Includes(name, "sales") { IncludesWithin(Lower(before), name, Lower(after), "sales"); }
    else if Includes(name, "revenue") { IncludesWithin(Lower(before), name, Lower(after), "revenue"); }
    else if Includes(name, "value") { IncludesWithin(Lower(before), name, Lower(after), "value"); }
    else if Includes(name, "amount") { IncludesWithin(Lower(before), name, Lower(after), "amount"); }
    else { IncludesWithin(Lower(before), name, Lower(after), "vat"); }
  }

  /** "Net Sales" is shown in rupees; "Units" is not. */
  lemma {:induction false} RevenueExamples()
    ensures IsRevenueMetric("Net Sales")
    ensures !IsRevenueMetric("Units")
  {
    assert Lower("Net Sales") == "net sales";
    assert OccursAt("net sales", "sales", 4);
    var units := Lower("Units");
    assert units == "units";
    FirstCharAbsent(units, "sales");
    FirstCharAbsent(units, "revenue");
    FirstCharAbsent(units, "value");
    FirstCharAbsent(units, "amount");
    FirstCharAbsent(units, "vat");
  }

  /** The test is on substrings, not words: "private" contains "vat", so a unit count can be shown in rupees. */
  lemma {:induction false} PrivateLabelIsRevenue()
    ensures IsRevenueMetric("Private Label Units")
  {
    assert Lower("Private Label Units") == "private label units";
    assert OccursAt("private label units", "vat", 3);
  }

  // ---------------------------------------------------------------------------
  // Cells

  /** The em dash shown for an empty cell. */
  const Dash: string := "\U{2014}"

  /** A value as shown: in rupees for a revenue metric, otherwise `toFixed(1)`. */
  function FormatValue(v: real, revenue: bool): (s: string)
    ensures s != Dash
  {
    if revenue then FormatINR(v) else Fixed(v, 1)
  }

  /** What a cell shows: its text and, possibly, a growth indicator. */
  datatype Cell = Cell(text: string, indicator: Option<Indicator>)

  /** A category cell: the category total of the column and the total of the column to its right, if any. */
  function CategoryCell(current: real, previous: Option<real>, revenue: bool): Cell {
    Cell(
      if current == 0.0 then Dash else FormatValue(current, revenue),
      if current > 0.0 && previous.Some? then Some(IndicatorOf(Some(current), previous)) else None)
  }

  /**
   * The category cell of column `index`; the column to its right, one month
   * earlier, is the previous one. It shows a dash exactly when its total is 0,
   * and an indicator exactly when its total is positive and it is not the
   * last column.
   */
  function CategoryCellAt(products: seq<MetricData>, columns: seq<MonthColumn>, index: nat, revenue: bool): (cell: Cell)
    requires index < |columns|
    ensures cell.text == Dash <==> CalculateCategoryTotal(products, columns[index].key) == 0.0
    ensures cell.indicator.Some? <==> CalculateCategoryTotal(products, columns[index].key) > 0.0 && index + 1 < |columns|
    ensures cell.text != Dash ==> cell.text == FormatValue(CalculateCategoryTotal(products, columns[index].key), revenue)
    ensures cell.indicator.Some? ==>
      cell.indicator.value == IndicatorOf(Some(CalculateCategoryTotal(products, columns[index].key)),
                                          Some(CalculateCategoryTotal(products, columns[index + 1].key)))
  {
    var current := CalculateCategoryTotal(products, columns[index].key);
    var previous := if index < |columns| - 1 then Some(CalculateCategoryTotal(products, columns[index + 1].key)) else None;
    CategoryCell(current, previous, revenue)
  }

  /** A product's month cell: absent from `months` (undefined), null, or a number. */
  datatype Slot = Missing | Null | Num(v: real)

  function SlotOf(r: MetricData, key: string): Slot {
    if key !in r.months then Missing
    else match r.months[key]
      case None => Null
      case Some(v) => Num(v)
  }

  /** The value `GrowthIndicator` receives; undefined and null both count as missing there. */
  function AsNumber(s: Slot): Option<real> {
    if s.Num? then Some(s.v) else None
  }

  /**
   * A product cell. The indicator's guard tests `previousValue !== null`, so a
   * missing previous month (undefined) still shows an indicator, one that says
   * "no data"; only a null previous value, or the last column, hides it.
   */
  function ProductCell(current: Slot, previous: Slot, revenue: bool): Cell {
    var shown := current.Num? && current.v != 0.0;
    Cell(
      if !shown then Dash else FormatValue(current.v, revenue),
      if shown && current.v > 0.0 && !previous.Null? then Some(IndicatorOf(AsNumber(current), AsNumber(previous))) else None)
  }

  /**
   * The product cell of column `index`; the last column's previous value is
   * null. It shows a dash exactly when its value is missing, null or 0, and an
   * indicator exactly when its value is positive, it is not the last column
   * and the previous month is not null.
   */
  function ProductCellAt(r: MetricData, columns: seq<MonthColumn>, index: nat, revenue: bool): (cell: Cell)
    requires index < |columns|
    ensures var current := SlotOf(r, columns[index].key);
      cell.text == Dash <==> !current.Num? || current.v == 0.0
    ensures var current := SlotOf(r, columns[index].key);
      (cell.indicator.Some?
       <==> current.Num? && current.v > 0.0 && index + 1 < |columns| && !SlotOf(r, columns[index + 1].key).Null?)
    ensures var current := SlotOf(r, columns[index].key);
      cell.text != Dash ==> current.Num? && cell.text == FormatValue(current.v, revenue)
    ensures cell.indicator.Some? ==>
      cell.indicator.value == IndicatorOf(AsNumber(SlotOf(r, columns[index].key)), AsNumber(SlotOf(r, columns[index + 1].key)))
  {
    var previous := if index < |columns| - 1 then SlotOf(r, columns[index + 1].key) else Null;
    ProductCell(SlotOf(r, columns[index].key), previous, revenue)
  }

  /** The totals cell of column `index`: a dash exactly when the metric total is 0, and never an indicator. */
  function TotalsCellAt(categories: seq<seq<MetricData>>, columns: seq<MonthColumn>, index: nat, revenue: bool): (text: string)
    requires index < |columns|
    ensures text == Dash <==> CalculateMetricTotal(categories, columns[index].key) == 0.0
    ensures text != Dash ==> text == FormatValue(CalculateMetricTotal(categories, columns[index].key), revenue)
  {
    var total := CalculateMetricTotal(categories, columns[index].key);
    if total == 0.0 then Dash else FormatValue(total, revenue)
  }

  // ---------------------------------------------------------------------------
  // What the cells promise

  /** A product whose previous month is absent from its record gets a "no data" indicator. */
  lemma {:induction false} MissingPreviousShowsNoData(r: MetricData, columns: seq<MonthColumn>, index: nat, revenue: bool)
    requires index + 1 < |columns|
    requires SlotOf(r, columns[index].key).Num? && SlotOf(r, columns[index].key).v > 0.0
    requires columns[index + 1].key !in r.months
    ensures ProductCellAt(r, columns, index, revenue).indicator == Some(NoData)
  {
  }

  /** The last column never shows an indicator, for categories and products alike. */
  lemma {:induction false} LastColumnHasNoIndicator(products: seq<MetricData>, r: MetricData, columns: seq<MonthColumn>, revenue: bool)
    requires columns != []
    ensures CategoryCellAt(products, columns, |columns| - 1, revenue).indicator.None?
    ensures ProductCellAt(r, columns, |columns| - 1, revenue).indicator.None?
  {
  }

  /**
   * In the table's own columns, a cell's indicator compares the month with the
   * calendar month before it: the column it compares against is one month
   * earlier, for category and product cells alike.
   */
  lemma {:induction false} PreviousIsMonthBefore(products: seq<MetricData>, r: MetricData, index: nat, revenue: bool)
    requires index < |Columns()|
    ensures var cs := Columns();
      CategoryCellAt(products, cs, index, revenue).indicator.Some? ==>
        index + 1 < |cs| && Ordinal(cs[index + 1]) + 1 == Ordinal(cs[index])
        && CategoryCellAt(products, cs, index, revenue).indicator.value
           == IndicatorOf(Some(CalculateCategoryTotal(products, cs[index].key)),
                          Some(CalculateCategoryTotal(products, cs[index + 1].key)))
    ensures var cs := Columns();
      ProductCellAt(r, cs, index, revenue).indicator.Some? ==>
        index + 1 < |cs| && Ordinal(cs[index + 1]) + 1 == Ordinal(cs[index])
        && ProductCellAt(r, cs, index, revenue).indicator.value
           == IndicatorOf(AsNumber(SlotOf(r, cs[index].key)), AsNumber(SlotOf(r, cs[index + 1].key)))
  {
    if index + 1 < |Columns()| {
      NextColumnIsPreviousMonth(index);
    }
  }
}

=== FILE: month_columns.dfy ===
/**
 * `getMonthColumns` of csvParser.ts: the fixed list of eighteen month columns
 * the table shows, newest first, each with the calendar year and quarter
 * derived from its label.
 */
module MonthColumns {
  import opened Wrappers
  import opened Strings
  import opened Numbers
  import CsvParser

  /** One table column: the CSV header it reads, the text it shows, its year and quarter. */
  datatype MonthColumn = MonthColumn(key: string, header: string, year: int, quarter: int)

  /** The month labels, newest first: June 2025 back to January 2024. */
  const MonthLabels: seq<string> := [
    "Jun-25", "May-25", "Apr-25", "Mar-25", "Feb-25", "Jan-25",
    "Dec-24", "Nov-24", "Oct-24", "Sep-24", "Aug-24", "Jul-24",
    "Jun-24", "May-24", "Apr-24", "Mar-24", "Feb-24", "Jan-24"
  ]

  /** The month-name table; a name's position is its month number, January being 0. */
  const MonthNames: seq<string> := [
    "Jan", "Feb", "Mar", "Apr", "May", "Jun", "Jul", "Aug", "Sep", "Oct", "Nov", "Dec"
  ]

  /** The position of the first `c` in `s`, if any. */
  function IndexOfChar(s: string, c: char): (r: Option<nat>)
    ensures r.Some? ==> r.value < |s| && s[r.value] == c && forall k :: 0 <= k < r.value ==> s[k] != c
    ensures r.None? ==> forall k :: 0 <= k < |s| ==> s[k] != c
  {
    if s == [] then None
    else if s[0] == c then Some(0)
    else match IndexOfChar(s[1..], c)
      case Some(i) => Some(i + 1)
      case None => None
  }

  /** The first two pieces of `s.split(sep)`; the second is `None` (undefined) when `sep` does not occur. */
  function SplitFirstTwo(s: string, sep: char): (r: (string, Option<string>))
    ensures sep !in r.0
    ensures r.1.Some? ==> sep !in r.1.value && |r.0| + 1 + |r.1.value| <= |s|
    ensures r.1.None? <==> sep !in s
    ensures r.1.Some? ==> s[..|r.0| + 1 + |r.1.value|] == r.0 + [sep] + r.1.value
    ensures r.1.None? ==> r.0 == s
  {
    match IndexOfChar(s, sep)
    case None => (s, None)
    case Some(i) =>
      var rest := s[i + 1..];
      var second := match IndexOfChar(rest, sep) { case Some(j) => rest[..j] case None => rest };
      assert s[..i + 1 + |second|] == s[..i] + [sep] + second;
      (s[..i], Some(second))
  }

  /** The month number of a name, or 0 for an unknown name (`{...}[monthName] || 0`). */
  function MonthNumber(name: string): (m: nat)
    ensures m < 12
    ensures name in MonthNames ==> MonthNames[m] == name
    ensures name !in MonthNames ==> m == 0
  {
    MonthNumberFrom(name, 0)
  }

  function MonthNumberFrom(name: string, start: nat): (m: nat)
    requires start <= |MonthNames|
    ensures m < 12
    ensures name in MonthNames[start..] ==> start <= m && MonthNames[m] == name
    ensures name !in MonthNames[start..] ==> m == 0
    decreases |MonthNames| - start
  {
    if start == |MonthNames| then 0
    else if MonthNames[start] == name then start
    else
      assert MonthNames[start..] == [MonthNames[start]] + MonthNames[start + 1..];
      MonthNumberFrom(name, start + 1)
  }

  /**
   * `parseInt` of a text that starts with a digit: the value of its leading run
   * of digits.
   */
  function LeadingInt(s: string): (n: nat)
  {
    DigitsValue(s[..DigitRun(s)])
  }

  /**
   * The year of a label: `parseInt("20" + yearPart)`, where an undefined part
   * prints as "undefined". Two digits yy give 2000 + yy; an undefined part
   * gives 20, the digits before "undefined".
   */
  function YearOf(yearPart: Option<string>): (y: nat)
    ensures yearPart.Some? && |yearPart.value| == 2 && AllDigits(yearPart.value) ==> y == 2000 + DigitsValue(yearPart.value)
    ensures yearPart.None? ==> y == 20
  {
    YearText(yearPart);
    LeadingInt("20" + yearPart.GetOr("undefined"))
  }

  lemma {:induction false} YearText(yearPart: Option<string>)
    ensures yearPart.Some? && |yearPart.value| == 2 && AllDigits(yearPart.value)
            ==> LeadingInt("20" + yearPart.value) == 2000 + DigitsValue(yearPart.value)
    ensures yearPart.None? ==> LeadingInt("20" + "undefined") == 20
  {
    assert DigitsValue("20") == 20;
    match yearPart
    case Some(yy) =>
      if |yy| == 2 && AllDigits(yy) {
        var s := "20" + yy;
        DigitRunOf(s, []);
        assert s + [] == s;
        assert s[..|s|] == s;
        DigitsConcat("20", yy);
      }
    case None =>
      var s := "20" + "undefined";
      DigitRunOf("20", "undefined");
      assert s[..2] == "20";
  }

  /** The column `getMonthColumns` builds for one label. */
  function ColumnOf(monthLabel: string): (c: MonthColumn)
    ensures c.key == monthLabel && c.header == monthLabel
    ensures 1 <= c.quarter <= 4
  {
    var (monthName, yearPart) := SplitFirstTwo(monthLabel, '-');
    MonthColumn(monthLabel, monthLabel, YearOf(yearPart), MonthNumber(monthName) / 3 + 1)
  }

  /** `getMonthColumns()`. */
  function Columns(): (cs: seq<MonthColumn>)
    ensures |cs| == |MonthLabels|
    ensures forall i :: 0 <= i < |cs| ==> cs[i] == ColumnOf(MonthLabels[i])
  {
    seq(|MonthLabels|, i requires 0 <= i < |MonthLabels| => ColumnOf(MonthLabels[i]))
  }

  // ---------------------------------------------------------------------------
  // What a label of the form "Mmm-yy" gives

  /** A label "Mmm-yy" gives month number `m`, year 2000 + yy and quarter m / 3 + 1. */
  lemma {:induction false} ColumnOfLabel(monthLabel: string, m: nat, yy: string)
    requires m < 12 && |yy| == 2 && AllDigits(yy)
    requires monthLabel == MonthNames[m] + "-" + yy
    ensures ColumnOf(monthLabel) == MonthColumn(monthLabel, monthLabel, 2000 + DigitsValue(yy), m / 3 + 1)
    ensures MonthNumber(SplitFirstTwo(monthLabel, '-').0) == m
  {
    var name := MonthNames[m];
    assert |name| == 3 && '-' !in name;
    assert IndexOfChar(monthLabel, '-') == Some(3) by {
      assert monthLabel[3] == '-';
      assert forall k :: 0 <= k < 3 ==> monthLabel[k] == name[k];
    }
    assert monthLabel[4..] == yy;
    assert '-' !in yy by {
      assert forall k :: 0 <= k < |yy| ==> IsDigit(yy[k]);
    }
    assert monthLabel[..3] == name;
    MonthNameNumber(m);
  }

  lemma {:induction false} MonthNameNumber(m: nat)
    requires m < 12
    ensures MonthNumber(MonthNames[m]) == m
  {
    assert MonthNames[m] in MonthNames;
    assert forall a, b :: 0 <= a < b < 12 ==> MonthNames[a] != MonthNames[b];
  }

  /** Label `i` is month `LabelMonth(i)` of year 2024 or 2025, newest first. */
  function LabelMonth(i: nat): (m: nat)
    requires i < 18
    ensures m < 12
  {
    if i < 6 then 5 - i else 17 - i
  }

  function LabelYear(i: nat): (y: nat)
    requires i < 18
  {
    if i < 6 then 25 else 24
  }

  lemma {:induction false} LabelShape(i: nat)
    requires i < 18
    ensures MonthLabels[i] == MonthNames[LabelMonth(i)] + "-" + NatToString(LabelYear(i))
  {
    assert NatToString(25) == "25" && NatToString(24) == "24";
  }

  // ---------------------------------------------------------------------------
  // What getMonthColumns promises

  /** Label `i` reads as month `LabelMonth(i)` of year 2000 + `LabelYear(i)`. */
  lemma {:induction false} ColumnAt(i: nat)
    requires i < 18
    ensures Columns()[i] == MonthColumn(MonthLabels[i], MonthLabels[i], 2000 + LabelYear(i), LabelMonth(i) / 3 + 1)
    ensures MonthNumber(SplitFirstTwo(MonthLabels[i], '-').0) == LabelMonth(i)
  {
    LabelShape(i);
    var yy := NatToString(LabelYear(i));
    assert yy == "25" || yy == "24";
    NatToStringValue(LabelYear(i));
    ColumnOfLabel(MonthLabels[i], LabelMonth(i), yy);
  }

  /**
   * Eighteen columns, each keyed and headed by its label, of year 2024 or 2025,
   * in quarter 1 to 4, the quarter being the label's month number / 3 + 1.
   */
  lemma {:induction false} ColumnsShape()
    ensures |Columns()| == 18
    ensures forall i :: 0 <= i < 18 ==>
      var c := Columns()[i];
      && c.key == c.header == MonthLabels[i]
      && c.year in {2024, 2025}
      && 1 <= c.quarter <= 4
      && c.quarter == MonthNumber(SplitFirstTwo(c.key, '-').0) / 3 + 1
  {
    forall i | 0 <= i < 18
      ensures var c := Columns()[i];
        && c.key == c.header == MonthLabels[i]
        && c.year in {2024, 2025}
        && 1 <= c.quarter <= 4
        && c.quarter == MonthNumber(SplitFirstTwo(c.key, '-').0) / 3 + 1
    {
      ColumnAt(i);
    }
  }

  /** The position of a column in calendar order, counted in months. */
  function Ordinal(c: MonthColumn): int {
    c.year * 12 + MonthNumber(SplitFirstTwo(c.key, '-').0)
  }

  /** Each column is exactly one month after the column to its right. */
  lemma {:induction false} NextColumnIsPreviousMonth(i: nat)
    requires i + 1 < 18
    ensures Ordinal(Columns()[i + 1]) + 1 == Ordinal(Columns()[i])
  {
    ColumnAt(i);
    ColumnAt(i + 1);
  }

  /** Every column of the table is one the parser stores in `months`. */
  lemma {:induction false} LabelsAreMonthKeys(i: nat)
    requires i < 18
    ensures CsvParser.IsMonthKey(MonthLabels[i])
  {
    LabelShape(i);
    var monthLabel := MonthLabels[i];
    assert OccursAt(monthLabel, "-", 3);
    if LabelYear(i) == 25 {
      assert OccursAt(monthLabel, "25", 4);
    } else {
      assert OccursAt(monthLabel, "24", 4);
    }
  }
}

=== FILE: numbers.dfy ===
/**
 * The JavaScript number builtins the dashboard relies on, over exact reals:
 * `parseFloat` (ParseNum) and `Number.prototype.toFixed` (Fixed).
 */
module Numbers {
  import opened Wrappers
  import opened Strings

  predicate IsDigit(c: char) {
    '0' <= c <= '9'
  }

  predicate AllDigits(s: string) {
    forall k :: 0 <= k < |s| ==> IsDigit(s[k])
  }

  function DigitValue(c: char): (d: nat)
    requires IsDigit(c)
    ensures d < 10
  {
    c as int - '0' as int
  }

  function DigitChar(d: nat): (c: char)
    requires d < 10
    ensures IsDigit(c) && DigitValue(c) == d
  {
    ('0' as int + d) as char
  }

  function Pow10(n: nat): (p: nat)
    ensures p >= 1
  {
    if n == 0 then 1 else 10 * Pow10(n - 1)
  }

  /** Length of the run of decimal digits at the start of `s`. */
  function DigitRun(s: string): (n: nat)
    ensures n <= |s| && AllDigits(s[..n])
    ensures n < |s| ==> !IsDigit(s[n])
  {
    if |s| == 0 || !IsDigit(s[0]) then 0
    else
      var n := 1 + DigitRun(s[1..]);
      assert s[..n] == [s[0]] + s[1..][..n - 1];
      n
  }

  /** The run of digits ends exactly where the digits `a` end. */
  lemma {:induction false} DigitRunOf(a: string, b: string)
    requires AllDigits(a)
    requires b == [] || !IsDigit(b[0])
    ensures DigitRun(a + b) == |a|
  {
    var s := a + b;
    assert forall k :: 0 <= k < |a| ==> s[k] == a[k];
    assert |b| > 0 ==> s[|a|] == b[0];
    var n := DigitRun(s);
    assert n <= |a| ==> s[..n] == a[..n];
  }

  /** The natural number a string of decimal digits denotes, most significant digit first. */
  function DigitsValue(s: string): nat
    requires AllDigits(s)
  {
    if s == [] then 0 else DigitsValue(s[..|s| - 1]) * 10 + DigitValue(s[|s| - 1])
  }

  /** Appending digits shifts the value left by their number. */
  lemma {:induction false} DigitsConcat(a: string, b: string)
    requires AllDigits(a) && AllDigits(b)
    ensures AllDigits(a + b)
    ensures DigitsValue(a + b) == DigitsValue(a) * Pow10(|b|) + DigitsValue(b)
  {
    if b != [] {
      var b' := b[..|b| - 1];
      assert (a + b)[..|a + b| - 1] == a + b';
      DigitsConcat(a, b');
      Regroup(DigitsValue(a), Pow10(|b'|), DigitsValue(b'), DigitValue(b[|b| - 1]));
    } else {
      assert a + b == a;
    }
  }

  /** The decimal representation of `n`, without leading zeros (as `String(n)` for an integer). */
  function NatToString(n: nat): (r: string)
    ensures r != [] && AllDigits(r)
    ensures |r| == 1 <==> n < 10
  {
    if n < 10 then [DigitChar(n)] else NatToString(n / 10) + [DigitChar(n % 10)]
  }

  /** Reading the digits of `NatToString(n)` gives back `n`. */
  lemma {:induction false} NatToStringValue(n: nat)
    ensures DigitsValue(NatToString(n)) == n
  {
    if n >= 10 {
      var r := NatToString(n);
      assert r[..|r| - 1] == NatToString(n / 10);
      NatToStringValue(n / 10);
    }
  }

  lemma {:induction false} Regroup(a: int, p: int, b: int, d: int)
    ensures (a * p + b) * 10 + d == a * (p * 10) + (b * 10 + d)
  {
  }

  lemma {:induction false} ProductAsReal(a: int, b: int)
    ensures (a * b) as real == a as real * b as real
  {
  }

  /** The `f` lowest decimal digits of `n`, padded with leading zeros. */
  function LowDigits(n: nat, f: nat): (r: string)
    ensures |r| == f && AllDigits(r)
  {
    if f == 0 then [] else LowDigits(n / 10, f - 1) + [DigitChar(n % 10)]
  }

  /** Reading the digits of `LowDigits(n, f)` gives back `n` modulo 10^f. */
  lemma {:induction false} LowDigitsValue(n: nat, f: nat)
    ensures DigitsValue(LowDigits(n, f)) == n % Pow10(f)
  {
    if f > 0 {
      var r := LowDigits(n, f);
      assert r[..|r| - 1] == LowDigits(n / 10, f - 1);
      LowDigitsValue(n / 10, f - 1);
      LowDigitsStep(n, f);
    }
  }

  lemma {:induction false} LowDigitsStep(n: nat, f: nat)
    requires f > 0
    ensures ((n / 10) % Pow10(f - 1)) * 10 + n % 10 == n % Pow10(f)
  {
    var p := Pow10(f - 1);
    var q, r0 := n / 10, n % 10;
    var a, b := q / p, q % p;
    assert n == 10 * q + r0;
    assert q == p * a + b;
    assert n == (10 * p) * a + (10 * b + r0);
    assert 0 <= 10 * b + r0 < 10 * p;
    ModUnique(n, 10 * p, a, 10 * b + r0);
  }

  lemma {:induction false} ModUnique(n: int, d: int, a: int, r: int)
    requires d > 0 && n == d * a + r && 0 <= r < d
    ensures n % d == r && n / d == a
  {
    var a', r' := n / d, n % d;
    assert d * a + r == d * a' + r';
    assert d * (a - a') == r' - r by {
      MulSub(d, a, a');
    }
    if a > a' {
      MulAtLeast(d, a - a');
    } else if a < a' {
      MulSub(d, a', a);
      MulAtLeast(d, a' - a);
    }
  }

  lemma {:induction false} MulSub(d: int, x: int, y: int)
    ensures d * (x - y) == d * x - d * y
  {
  }

  lemma {:induction false} MulAtLeast(d: int, k: int)
    requires d > 0 && k >= 1
    ensures d * k >= d
  {
  }

  /**
   * `parseFloat(s)`: skip leading white space, an optional sign, then the longest
   * prefix of the form digits [ '.' digits ] with at least one digit; anything after
   * it is ignored. `None` stands for NaN: a text without any digit is NaN, and
   * a text of digits alone reads as the integer it denotes.
   */
  function ParseNum(s: string): (r: Option<real>)
    ensures s != [] && AllDigits(s) ==> r == Some(DigitsValue(s) as real)
    ensures r.Some? ==> exists k :: 0 <= k < |s| && IsDigit(s[k])
  {
    ParseNumShape(s);
    ParseSigned(s[LeadingSpaces(s)..])
  }

  lemma {:induction false} ParseNumShape(s: string)
    ensures s != [] && AllDigits(s) ==> ParseSigned(s[LeadingSpaces(s)..]) == Some(DigitsValue(s) as real)
    ensures ParseSigned(s[LeadingSpaces(s)..]).Some? ==> exists k :: 0 <= k < |s| && IsDigit(s[k])
  {
    var i := LeadingSpaces(s);
    var t := s[i..];
    if s != [] && AllDigits(s) {
      assert IsDigit(s[0]);
      assert i == 0 && t == s;
      ParseMagnitudeInteger(s);
    }
    if ParseSigned(t).Some? {
      var skip := if |t| > 0 && (t[0] == '-' || t[0] == '+') then 1 else 0;
      var body := t[skip..];
      assert ParseMagnitude(body).Some?;
      MagnitudeHasDigit(body);
      var k :| 0 <= k < |body| && IsDigit(body[k]);
      assert s[i + skip + k] == body[k];
    }
  }

  /** A magnitude is only read where its text holds a digit. */
  lemma {:induction false} MagnitudeHasDigit(body: string)
    requires ParseMagnitude(body).Some?
    ensures exists k :: 0 <= k < |body| && IsDigit(body[k])
  {
    var w := DigitRun(body);
    if w > 0 {
      assert body[..w][0] == body[0];
    } else {
      var rest := body[w..];
      var run := DigitRun(rest[1..]);
      assert FractionDigits(rest) == rest[1..][..run] != [];
      assert rest[1..][..run][0] == body[w + 1];
    }
  }

  function ParseSigned(t: string): Option<real>
  {
    if |t| > 0 && t[0] == '-' then Negate(ParseMagnitude(t[1..]))
    else if |t| > 0 && t[0] == '+' then ParseMagnitude(t[1..])
    else ParseMagnitude(t)
  }

  /** The digits after a leading '.', if `rest` starts with one. */
  function FractionDigits(rest: string): (r: string)
    ensures AllDigits(r)
  {
    if |rest| > 0 && rest[0] == '.' then rest[1..][..DigitRun(rest[1..])] else []
  }

  function ParseMagnitude(body: string): Option<real>
  {
    var w := DigitRun(body);
    var fraction := FractionDigits(body[w..]);
    if w == 0 && fraction == [] then None
    else Some(DigitsValue(body[..w]) as real + Unshift(DigitsValue(fraction) as real, |fraction|))
  }

  /** Digits, a '.', and more digits read back as their exact value. */
  lemma {:induction false} ParseMagnitudeDecimal(whole: string, fraction: string)
    requires AllDigits(whole) && whole != [] && AllDigits(fraction)
    ensures ParseMagnitude(whole + ("." + fraction))
         == Some(DigitsValue(whole) as real + Unshift(DigitsValue(fraction) as real, |fraction|))
  {
    DecimalLayout(whole, fraction);
    ParseMagnitudeOf(whole + ("." + fraction), whole, fraction);
  }

  lemma {:induction false} ParseMagnitudeOf(body: string, whole: string, fraction: string)
    requires AllDigits(whole) && whole != [] && AllDigits(fraction)
    requires DigitRun(body) == |whole| && body[..|whole|] == whole && FractionDigits(body[|whole|..]) == fraction
    ensures ParseMagnitude(body) == Some(DigitsValue(whole) as real + Unshift(DigitsValue(fraction) as real, |fraction|))
  {
  }

  lemma {:induction false} DecimalLayout(whole: string, fraction: string)
    requires AllDigits(whole) && AllDigits(fraction)
    ensures var body := whole + ("." + fraction);
            && DigitRun(body) == |whole|
            && body[..|whole|] == whole
            && FractionDigits(body[|whole|..]) == fraction
  {
    var body := whole + ("." + fraction);
    DigitRunOf(whole, "." + fraction);
    assert body[|whole|..] == "." + fraction;
    FractionLayout(fraction);
  }

  lemma {:induction false} FractionLayout(fraction: string)
    requires AllDigits(fraction)
    ensures FractionDigits("." + fraction) == fraction
  {
    assert ("." + fraction)[1..] == fraction;
    DigitRunOf(fraction, []);
    assert fraction + [] == fraction;
  }

  /** A run of digits reads back as the integer it denotes. */
  lemma {:induction false} ParseMagnitudeInteger(whole: string)
    requires AllDigits(whole) && whole != []
    ensures ParseMagnitude(whole) == Some(DigitsValue(whole) as real)
  {
    DigitRunOf(whole, []);
    assert whole + [] == whole;
    assert whole[..|whole|] == whole;
    assert whole[|whole|..] == [];
  }

  /** The negation of a parsed magnitude (NaN stays NaN). */
  function Negate(m: Option<real>): Option<real>
  {
    match m
    case Some(v) => Some(-v)
    case None => None
  }

  lemma {:induction false} ParseNumSigned(s: string, negative: bool, body: string, v: real)
    requires s == SignText(negative) + body
    requires body != [] && IsDigit(body[0])
    requires ParseMagnitude(body) == Some(v)
    ensures ParseNum(s) == Some(if negative then -v else v)
  {
    assert s[0] == '-' || IsDigit(s[0]);
    assert LeadingSpaces(s) == 0;
    assert s[0..] == s;
    if negative {
      assert s[1..] == body;
    } else {
      assert s == body;
    }
  }

  /** A signed decimal with a fractional part reads back as its exact value. */
  lemma {:induction false} ParseDecimal(negative: bool, whole: string, fraction: string, m: real)
    requires AllDigits(whole) && whole != [] && AllDigits(fraction)
    requires m == DigitsValue(whole) as real + Unshift(DigitsValue(fraction) as real, |fraction|)
    ensures ParseNum(SignText(negative) + (whole + ("." + fraction))) == Some(if negative then -m else m)
  {
    var body := whole + ("." + fraction);
    ParseMagnitudeDecimal(whole, fraction);
    assert body[0] == whole[0];
    ParseNumSigned(SignText(negative) + body, negative, body, m);
  }

  /** A signed run of digits reads back as the integer it denotes. */
  lemma {:induction false} ParseInteger(negative: bool, whole: string, m: real)
    requires AllDigits(whole) && whole != [] && m == DigitsValue(whole) as real
    ensures ParseNum(SignText(negative) + whole) == Some(if negative then -m else m)
  {
    ParseMagnitudeInteger(whole);
    ParseNumSigned(SignText(negative) + whole, negative, whole, m);
  }

  /** What the code relies on: an empty string is NaN and `"0"` is zero, not NaN. */
  lemma {:induction false} ParseNumBasics()
    ensures ParseNum("") == None
    ensures ParseNum("0") == Some(0.0)
    ensures ParseNum("abc") == None
  {
    ParseNumEmpty();
    assert DigitsValue("0") == 0;
    ParseInteger(false, "0", 0.0);
    assert SignText(false) + "0" == "0";
    ParseNumLetters();
  }

  lemma {:induction false} ParseNumEmpty()
    ensures ParseNum("") == None
  {
    assert LeadingSpaces("") == 0;
    assert DigitRun("") == 0;
    assert FractionDigits("") == [];
  }

  lemma {:induction false} ParseNumLetters()
    ensures ParseNum("abc") == None
  {
    assert LeadingSpaces("abc") == 0;
    assert "abc"[0..] == "abc";
    assert DigitRun("abc") == 0;
    assert FractionDigits("abc") == [];
  }

  function Abs(x: real): (a: real)
    ensures a >= 0.0 && (a == x || a == -x)
  {
    if x < 0.0 then -x else x
  }

  /** `x` with its decimal point moved `f` places to the right. */
  function Shift(x: real, f: nat): real
  {
    if f == 0 then x else 10.0 * Shift(x, f - 1)
  }

  /** `x` with its decimal point moved `f` places to the left. */
  function Unshift(x: real, f: nat): real
  {
    if f == 0 then x else Unshift(x, f - 1) / 10.0
  }

  lemma {:induction false} ShiftIsProduct(x: real, f: nat)
    ensures Shift(x, f) == x * Pow10(f) as real
  {
    if f > 0 {
      ShiftIsProduct(x, f - 1);
      assert Pow10(f) as real == 10.0 * Pow10(f - 1) as real;
    }
  }

  lemma {:induction false} UnshiftIsQuotient(x: real, f: nat)
    ensures Unshift(x, f) == x / Pow10(f) as real
  {
    if f > 0 {
      UnshiftIsQuotient(x, f - 1);
      var p := Pow10(f - 1) as real;
      assert Pow10(f) as real == 10.0 * p;
      assert (x / p) / 10.0 == x / (10.0 * p);
    }
  }

  lemma {:induction false} ShiftNonNegative(x: real, f: nat)
    requires x >= 0.0
    ensures Shift(x, f) >= 0.0
  {
    if f > 0 {
      ShiftNonNegative(x, f - 1);
    }
  }

  /** Moving the point left is linear: it distributes over sums and differences. */
  lemma {:induction false} UnshiftLinear(a: real, b: real, f: nat)
    ensures Unshift(a + b, f) == Unshift(a, f) + Unshift(b, f)
    ensures Unshift(a - b, f) == Unshift(a, f) - Unshift(b, f)
  {
    if f > 0 {
      UnshiftLinear(a, b, f - 1);
    }
  }

  /** Moving the point left is monotone. */
  lemma {:induction false} UnshiftMonotone(a: real, b: real, f: nat)
    requires a <= b
    ensures Unshift(a, f) <= Unshift(b, f)
  {
    if f > 0 {
      UnshiftMonotone(a, b, f - 1);
    }
  }

  /** Moving the point right and then left again is the identity. */
  lemma {:induction false} UnshiftShift(x: real, f: nat)
    ensures Unshift(Shift(x, f), f) == x
  {
    if f > 0 {
      UnshiftShift(x, f - 1);
      UnshiftTen(Shift(x, f - 1), f - 1);
    }
  }

  lemma {:induction false} UnshiftTen(x: real, f: nat)
    ensures Unshift(10.0 * x, f) == 10.0 * Unshift(x, f)
  {
    if f > 0 {
      UnshiftTen(x, f - 1);
    }
  }

  /** The integer `n` of `toFixed(f)`: |x| * 10^f rounded half up. */
  function RoundedUnits(x: real, f: nat): (n: nat)
    ensures n as real <= Shift(Abs(x), f) + 0.5 < n as real + 1.0
  {
    ShiftNonNegative(Abs(x), f);
    (Shift(Abs(x), f) + 0.5).Floor
  }

  /** `n` without its `f` lowest decimal digits: `Math.floor(n / 10^f)`. */
  function DropDigits(n: nat, f: nat): nat
  {
    if f == 0 then n else DropDigits(n / 10, f - 1)
  }

  /** Cutting `n` into its high digits and its `f` low digits loses nothing. */
  lemma {:induction false} SplitDigits(n: nat, f: nat)
    ensures DropDigits(n, f) * Pow10(f) + n % Pow10(f) == n
  {
    if f > 0 {
      SplitDigits(n / 10, f - 1);
      LowDigitsStep(n, f);
      var d, p := DropDigits(n / 10, f - 1), Pow10(f - 1);
      assert d * p + (n / 10) % p == n / 10;
      assert d * (10 * p) == 10 * (d * p);
    }
  }

  /** `x.toFixed(f)` for |x| < 10^21: a '-' when x < 0, the integer part, then `f` decimals. */
  function Fixed(x: real, f: nat): (r: string)
    ensures r != [] && (r[0] == '-' <==> x < 0.0) && (r[0] == '-' || IsDigit(r[0]))
    ensures IsDigit(r[|r| - 1])
  {
    var sign := SignText(x < 0.0);
    var digits := FixedDigits(RoundedUnits(x, f), f);
    FirstOfConcat(sign, digits);
    sign + digits
  }

  /** The sign `toFixed` writes: a '-' for a negative number, nothing otherwise. */
  function SignText(negative: bool): string
  {
    if negative then "-" else ""
  }

  /** The digits of `n / 10^f` with `f` places after the point (no point when `f` is 0). */
  function FixedDigits(n: nat, f: nat): (r: string)
    ensures r != [] && IsDigit(r[0]) && IsDigit(r[|r| - 1])
  {
    var whole := NatToString(DropDigits(n, f));
    if f == 0 then whole else whole + ("." + LowDigits(n, f))
  }

  lemma {:induction false} FirstOfConcat(sign: string, digits: string)
    requires digits != [] && IsDigit(digits[0])
    ensures (sign + digits)[0] == if sign == [] then digits[0] else sign[0]
  {
  }

  /** The value that `Fixed(x, f)` displays. */
  function Rounded(x: real, f: nat): real
  {
    var m := Unshift(RoundedUnits(x, f) as real, f);
    if x < 0.0 then -m else m
  }

  /** The displayed figure is within half a unit of its last place of the true value. */
  lemma {:induction false} RoundedIsClose(x: real, f: nat)
    ensures Abs(Rounded(x, f) - x) <= 0.5 / Pow10(f) as real
  {
    var n := RoundedUnits(x, f) as real;
    var a := Abs(x);
    var s := Shift(a, f);
    UnshiftMonotone(n - s, 0.5, f);
    UnshiftMonotone(-0.5, n - s, f);
    UnshiftLinear(n, s, f);
    UnshiftLinear(0.0, 0.5, f);
    UnshiftShift(a, f);
    UnshiftZero(f);
    UnshiftIsQuotient(0.5, f);
    SignedClose(x, a, Unshift(n, f) - a, Unshift(0.5, f), Rounded(x, f));
  }

  lemma {:induction false} UnshiftZero(f: nat)
    ensures Unshift(0.0, f) == 0.0
  {
    if f > 0 {
      UnshiftZero(f - 1);
    }
  }

  lemma {:induction false} SignedClose(x: real, a: real, d: real, h: real, r: real)
    requires a == Abs(x) && -h <= d <= h
    requires r == if x < 0.0 then -(d + a) else d + a
    ensures Abs(r - x) <= h
  {
  }

  /** Reading a fixed-point rendering back gives exactly the rounded value. */
  lemma {:induction false} FixedRoundTrip(x: real, f: nat)
    ensures ParseNum(Fixed(x, f)) == Some(Rounded(x, f))
  {
    var n := RoundedUnits(x, f);
    FixedDigitsValue(n, f, x < 0.0);
    FixedShape(x, f, n);
    RoundedShape(x, f, n);
  }

  lemma {:induction false} FixedShape(x: real, f: nat, n: nat)
    requires n == RoundedUnits(x, f)
    ensures Fixed(x, f) == SignText(x < 0.0) + FixedDigits(n, f)
  {
  }

  lemma {:induction false} RoundedShape(x: real, f: nat, n: nat)
    requires n == RoundedUnits(x, f)
    ensures Rounded(x, f) == if x < 0.0 then -Unshift(n as real, f) else Unshift(n as real, f)
  {
  }

  /** A sign followed by `FixedDigits(n, f)` reads back as `±n / 10^f`. */
  lemma {:induction false} FixedDigitsValue(n: nat, f: nat, negative: bool)
    ensures ParseNum(SignText(negative) + FixedDigits(n, f))
         == Some(if negative then -Unshift(n as real, f) else Unshift(n as real, f))
  {
    if f == 0 {
      NatToStringValue(n);
      ParseInteger(negative, NatToString(n), Unshift(n as real, 0));
    } else {
      DecimalValue(n, f, negative);
    }
  }

  /** With decimals, the rendering is `sign whole.low` and reads back as `±(whole + low / 10^f)`. */
  lemma {:induction false} DecimalValue(n: nat, f: nat, negative: bool)
    requires f > 0
    ensures ParseNum(SignText(negative) + FixedDigits(n, f))
         == Some(if negative then -Unshift(n as real, f) else Unshift(n as real, f))
  {
    var high := DropDigits(n, f);
    var whole, low := NatToString(high), LowDigits(n, f);
    assert FixedDigits(n, f) == whole + ("." + low);
    NatToStringValue(high);
    HighAndLow(n, f);
    DecimalText(n, f, negative, high, whole, low);
  }

  lemma {:induction false} DecimalText(n: nat, f: nat, negative: bool, high: nat, whole: string, low: string)
    requires AllDigits(whole) && whole != [] && DigitsValue(whole) == high
    requires AllDigits(low) && |low| == f
    requires Shift(high as real, f) + DigitsValue(low) as real == n as real
    ensures ParseNum(SignText(negative) + (whole + ("." + low)))
         == Some(if negative then -Unshift(n as real, f) else Unshift(n as real, f))
  {
    RecombineDigits(high, DigitsValue(low), n, f);
    ParseDecimal(negative, whole, low, Unshift(n as real, f));
  }

  /** The digits of `n` above and below its `f`-th place make up `n` again. */
  lemma {:induction false} HighAndLow(n: nat, f: nat)
    ensures Shift(DropDigits(n, f) as real, f) + DigitsValue(LowDigits(n, f)) as real == n as real
  {
    LowDigitsValue(n, f);
    SplitDigits(n, f);
    ShiftIsProduct(DropDigits(n, f) as real, f);
    ProductAsReal(DropDigits(n, f), Pow10(f));
  }

  /** Moving the point of `high * 10^f + low` left by `f` places gives `high` plus the moved `low`. */
  lemma {:induction false} RecombineDigits(high: nat, low: nat, n: nat, f: nat)
    requires Shift(high as real, f) + low as real == n as real
    ensures high as real + Unshift(low as real, f) == Unshift(n as real, f)
  {
    UnshiftLinear(Shift(high as real, f), low as real, f);
    UnshiftShift(high as real, f);
  }
}

=== FILE: strings.dfy ===
/**
 * The JavaScript string operations the dashboard relies on: `trim`,
 * `includes` and `toLowerCase`.
 */
module Strings {

  /** The white space and line terminators that `String.prototype.trim` and `parseFloat` skip. */
  predicate IsSpace(c: char) {
    || c == ' ' || c == '\t' || c == '\n' || c == '\r'
    || c == '\U{000B}' || c == '\U{000C}' || c == '\U{00A0}' || c == '\U{FEFF}'
    || c == '\U{1680}' || ('\U{2000}' <= c <= '\U{200A}')
    || c == '\U{2028}' || c == '\U{2029}' || c == '\U{202F}' || c == '\U{205F}' || c == '\U{3000}'
  }

  predicate AllSpaces(s: string) {
    forall k :: 0 <= k < |s| ==> IsSpace(s[k])
  }

  /** Number of white-space characters at the start of `s`. */
  function LeadingSpaces(s: string): (i: nat)
    ensures i <= |s|
    ensures AllSpaces(s[..i])
    ensures i < |s| ==> !IsSpace(s[i])
  {
    if |s| == 0 || !IsSpace(s[0]) then 0
    else
      var i := 1 + LeadingSpaces(s[1..]);
      assert s[..i] == [s[0]] + s[1..][..i - 1];
      i
  }

  /** Length of `s` without its trailing white space. */
  function TextEnd(s: string): (j: nat)
    ensures j <= |s|
    ensures AllSpaces(s[j..])
    ensures j > 0 ==> !IsSpace(s[j - 1])
  {
    if |s| == 0 || !IsSpace(s[|s| - 1]) then |s|
    else
      var j := TextEnd(s[..|s| - 1]);
      assert s[j..] == s[..|s| - 1][j..] + [s[|s| - 1]];
      j
  }

  /** `s.trim()`: `s` without leading and trailing white space. */
  function Trim(s: string): (r: string)
    ensures exists i :: 0 <= i <= |s| - |r| && s[i..i + |r|] == r && AllSpaces(s[..i]) && AllSpaces(s[i + |r|..])
    ensures r != [] ==> !IsSpace(r[0]) && !IsSpace(r[|r| - 1])
    ensures r == [] <==> AllSpaces(s)
  {
    var i := LeadingSpaces(s);
    var j := TextEnd(s[i..]);
    TrimWitness(s, i, j);
    s[i..][..j]
  }

  lemma {:induction false} TrimWitness(s: string, i: nat, j: nat)
    requires i <= |s| && AllSpaces(s[..i]) && (i < |s| ==> !IsSpace(s[i]))
    requires j <= |s| - i && AllSpaces(s[i..][j..]) && (j > 0 ==> !IsSpace(s[i..][j - 1]))
    ensures s[i..i + j] == s[i..][..j] && AllSpaces(s[..i]) && AllSpaces(s[i + j..])
    ensures s[i..][..j] != [] ==> !IsSpace(s[i..][..j][0]) && !IsSpace(s[i..][..j][j - 1])
    ensures s[i..][..j] == [] <==> AllSpaces(s)
  {
    var t := s[i..];
    assert s[i + j..] == t[j..];
    if j == 0 {
      assert s == s[..i] + t;
    } else {
      assert s[i..][..j][0] == s[i];
      assert s[i..][..j][j - 1] == t[j - 1] == s[i + j - 1];
    }
  }

  /** `s.includes(sub)` holds exactly when `sub` occurs in `s` at some offset. */
  predicate OccursAt(s: string, sub: string, i: nat) {
    i + |sub| <= |s| && s[i..i + |sub|] == sub
  }

  /** `s.includes(sub)`. */
  function Includes(s: string, sub: string): (b: bool)
    ensures b <==> exists i: nat :: OccursAt(s, sub, i)
  {
    if |sub| > |s| then
      assert forall i: nat :: !OccursAt(s, sub, i);
      false
    else if s[..|sub|] == sub then
      assert OccursAt(s, sub, 0);
      true
    else
      var b := Includes(s[1..], sub);
      if b then
        var i: nat :| OccursAt(s[1..], sub, i);
        assert s[i + 1..i + 1 + |sub|] == s[1..][i..i + |sub|];
        assert OccursAt(s, sub, i + 1);
        b
      else
        assert forall i: nat :: !OccursAt(s, sub, i) by {
          forall i: nat | OccursAt(s, sub, i) ensures false {
            assert i != 0;
            assert s[1..][i - 1..i - 1 + |sub|] == s[i..i + |sub|];
            assert OccursAt(s[1..], sub, i - 1);
          }
        }
        b
  }

  /** A text can only contain `sub` where `sub`'s first character occurs. */
  lemma {:induction false} FirstCharAbsent(s: string, sub: string)
    requires sub != []
    requires forall i :: 0 <= i && i + |sub| <= |s| ==> s[i] != sub[0]
    ensures !Includes(s, sub)
  {
    forall i: nat
      ensures !OccursAt(s, sub, i)
    {
      if i + |sub| <= |s| {
        assert s[i..i + |sub|][0] == s[i];
      }
    }
  }

  /** A text contains `sub` exactly when it is some text, then `sub`, then some more text. */
  lemma {:induction false} IncludesSplit(s: string, sub: string)
    ensures Includes(s, sub) <==> exists a, c :: s == a + sub + c
  {
    if Includes(s, sub) {
      var i: nat :| OccursAt(s, sub, i);
      assert s == s[..i] + sub + s[i + |sub|..];
    }
    if exists a, c :: s == a + sub + c {
      var a, c :| s == a + sub + c;
      assert s[|a|..|a| + |sub|] == sub;
      assert OccursAt(s, sub, |a|);
    }
  }

  /** What a text contains, a longer text around it contains too. */
  lemma {:induction false} IncludesWithin(a: string, s: string, b: string, sub: string)
    requires Includes(s, sub)
    ensures Includes(a + s + b, sub)
  {
    var i: nat :| OccursAt(s, sub, i);
    var t := a + s + b;
    assert t[|a| + i..|a| + i + |sub|] == s[i..i + |sub|];
    assert OccursAt(t, sub, |a| + i);
  }

  /** `toLowerCase` on one character; only the ASCII letters are mapped. */
  function LowerChar(c: char): (d: char)
    ensures 'A' <= c <= 'Z' ==> 'a' <= d <= 'z' && d as int == c as int - 'A' as int + 'a' as int
    ensures !('A' <= c <= 'Z') ==> d == c
  {
    if 'A' <= c <= 'Z' then (c as int - 'A' as int + 'a' as int) as char else c
  }

  /** `s.toLowerCase()` over ASCII letters. */
  function Lower(s: string): (r: string)
    ensures |r| == |s|
    ensures forall k :: 0 <= k < |s| ==> r[k] == LowerChar(s[k])
  {
    seq(|s|, k requires 0 <= k < |s| => LowerChar(s[k]))
  }

  /** Lower-casing works character by character, so it distributes over concatenation. */
  lemma {:induction false} LowerConcat(a: string, b: string)
    ensures Lower(a + b) == Lower(a) + Lower(b)
  {
  }

  /** Lower-casing twice is lower-casing once. */
  lemma {:induction false} LowerIdempotent(s: string)
    ensures Lower(Lower(s)) == Lower(s)
  {
  }

  /** Trimming a trimmed string changes nothing. */
  lemma {:induction false} TrimIdempotent(s: string)
    ensures Trim(Trim(s)) == Trim(s)
  {
    var r := Trim(s);
    var i := LeadingSpaces(r);
    assert i == 0;
    var j := TextEnd(r);
    assert j == |r|;
  }
}

=== FILE: sums.dfy ===
/**
 * Order-free sums over finite sets. `Object.values(...).reduce` adds the
 * values in key order; with exact arithmetic the order does not matter, and
 * these sums are the specification the folds are proved against.
 */
module Sums {

  /** The sum of `f` over `s`, in no particular order. */
  ghost function SetSum<T>(s: set<T>, f: T -> real): real
    decreases s
  {
    if s == {} then 0.0
    else
      var x :| x in s;
      f(x) + SetSum(s - {x}, f)
  }

  /** Any element may be taken out first. */
  lemma {:induction false} SetSumRemove<T>(s: set<T>, f: T -> real, y: T)
    requires y in s
    ensures SetSum(s, f) == f(y) + SetSum(s - {y}, f)
    decreases s
  {
    var x :| x in s && SetSum(s, f) == f(x) + SetSum(s - {x}, f);
    if x != y {
      SetSumRemove(s - {x}, f, y);
      SetSumRemove(s - {y}, f, x);
      assert s - {x} - {y} == s - {y} - {x};
    }
  }

  /** Adding an element adds its value. */
  lemma {:induction false} SetSumInsert<T>(s: set<T>, f: T -> real, y: T)
    requires y !in s
    ensures SetSum(s + {y}, f) == SetSum(s, f) + f(y)
  {
    SetSumRemove(s + {y}, f, y);
    assert s + {y} - {y} == s;
  }

  /** The sum over two disjoint sets is the sum of the sums. */
  lemma {:induction false} SetSumUnion<T>(a: set<T>, b: set<T>, f: T -> real)
    requires a !! b
    ensures SetSum(a + b, f) == SetSum(a, f) + SetSum(b, f)
    decreases a
  {
    if a == {} {
      assert a + b == b;
    } else {
      var x :| x in a;
      SetSumRemove(a + b, f, x);
      SetSumRemove(a, f, x);
      assert (a + b) - {x} == (a - {x}) + b;
      SetSumUnion(a - {x}, b, f);
    }
  }

  /** Two functions that agree on `s` have the same sum over `s`. */
  lemma {:induction false} SetSumCongruent<T>(s: set<T>, f: T -> real, g: T -> real)
    requires forall x :: x in s ==> f(x) == g(x)
    ensures SetSum(s, f) == SetSum(s, g)
    decreases s
  {
    if s != {} {
      var x :| x in s;
      SetSumRemove(s, f, x);
      SetSumRemove(s, g, x);
      SetSumCongruent(s - {x}, f, g);
    }
  }

  /** The image of `s` under `g`. */
  function Image<T, U>(s: set<T>, g: T -> U): set<U> {
    set x | x in s :: g(x)
  }

  /** Summing over the image of an injective map is summing the composed function. */
  lemma {:induction false} SetSumImage<T, U>(s: set<T>, g: T -> U, f: U -> real, fg: T -> real)
    requires forall x, y :: x in s && y in s && g(x) == g(y) ==> x == y
    requires forall x :: x in s ==> fg(x) == f(g(x))
    ensures SetSum(Image(s, g), f) == SetSum(s, fg)
    decreases s
  {
    if s == {} {
      assert Image(s, g) == {};
    } else {
      var x :| x in s;
      var image := Image(s, g);
      var rest := Image(s - {x}, g);
      assert image == rest + {g(x)};
      assert g(x) !in rest;
      SetSumInsert(rest, f, g(x));
      SetSumRemove(s, fg, x);
      SetSumImage(s - {x}, g, f, fg);
    }
  }

  /** The elements of a sequence, as a set. */
  function Elems<T>(s: seq<T>): set<T> {
    set x | x in s
  }

  /** No element occurs twice. */
  predicate Distinct<T(==)>(s: seq<T>) {
    forall i, j :: 0 <= i < j < |s| ==> s[i] != s[j]
  }

  /** Dropping the last element of a sequence without repeats drops it from the set. */
  lemma {:induction false} ElemsSnoc<T>(s: seq<T>)
    requires s != [] && Distinct(s)
    ensures Elems(s) == Elems(s[..|s| - 1]) + {s[|s| - 1]}
    ensures s[|s| - 1] !in Elems(s[..|s| - 1])
    ensures Distinct(s[..|s| - 1])
  {
    var init := s[..|s| - 1];
    assert s == init + [s[|s| - 1]];
    forall x | x in init ensures x != s[|s| - 1] {
      var i :| 0 <= i < |init| && init[i] == x;
    }
  }
}

=== FILE: table_totals.dfy ===
/**
 * The column totals of MetricsTable.tsx: `calculateCategoryTotal` folds one
 * month's value over `Object.values` of a category, `calculateMetricTotal`
 * folds the category totals over `Object.values` of a metric. A missing or
 * null month value counts as 0.
 *
 * The order in which `Object.values` lists a dictionary is not modelled; it is
 * given as a key sequence that lists every key once, and the totals are proved
 * equal to order-free sums, so the order never matters.
 */
module TableTotals {
  import opened Wrappers
  import opened Sums
  import opened CsvParser

  /** `productData.months[columnKey] || 0`: an absent key (undefined) and null both give 0. */
  function CellValue(r: MetricData, columnKey: string): (v: real)
    ensures columnKey in r.months && r.months[columnKey].Some? ==> v == r.months[columnKey].value
    ensures !(columnKey in r.months && r.months[columnKey].Some?) ==> v == 0.0
  {
    if columnKey in r.months then r.months[columnKey].GetOr(0.0) else 0.0
  }

  /** `calculateCategoryTotal`: the `reduce` from 0 over the products' records, left to right. */
  function CalculateCategoryTotal(products: seq<MetricData>, columnKey: string): (total: real)
    ensures (forall i :: 0 <= i < |products| ==> CellValue(products[i], columnKey) >= 0.0) ==> total >= 0.0
  {
    if products == [] then 0.0
    else CalculateCategoryTotal(products[..|products| - 1], columnKey) + CellValue(products[|products| - 1], columnKey)
  }

  /** `calculateMetricTotal`: the `reduce` from 0 over the categories, each contributing its category total. */
  function CalculateMetricTotal(categories: seq<seq<MetricData>>, columnKey: string): (total: real)
    ensures (forall i, j :: 0 <= i < |categories| && 0 <= j < |categories[i]| ==> CellValue(categories[i][j], columnKey) >= 0.0)
              ==> total >= 0.0
  {
    if categories == [] then 0.0
    else CalculateMetricTotal(categories[..|categories| - 1], columnKey)
         + CalculateCategoryTotal(categories[|categories| - 1], columnKey)
  }

  // ---------------------------------------------------------------------------
  // Object.values, given the order of the keys

  /** `order` lists every key of a dictionary exactly once. */
  ghost predicate Enumerates(order: seq<string>, keys: set<string>) {
    Distinct(order) && forall k :: k in order <==> k in keys
  }

  /** The values of `m` in the order of `order`. */
  function Values<K, V>(m: map<K, V>, order: seq<K>): (vs: seq<V>)
    requires forall k :: k in order ==> k in m
    ensures |vs| == |order| && forall i :: 0 <= i < |order| ==> vs[i] == m[order[i]]
  {
    if order == [] then [] else Values(m, order[..|order| - 1]) + [m[order[|order| - 1]]]
  }

  /** `productOrders` gives, for every category of a metric, the order of its products. */
  ghost predicate OrdersProducts(metricData: CategoryMap, productOrders: map<string, seq<string>>) {
    forall c :: c in metricData ==> c in productOrders && Enumerates(productOrders[c], metricData[c].Keys)
  }

  /** The product records of every category of a metric, categories in `categoryOrder`. */
  function NestedValues(metricData: CategoryMap, categoryOrder: seq<string>, productOrders: map<string, seq<string>>): (vs: seq<seq<MetricData>>)
    requires forall c :: c in categoryOrder ==> c in metricData
    requires OrdersProducts(metricData, productOrders)
    ensures |vs| == |categoryOrder|
  {
    if categoryOrder == [] then []
    else
      var c := categoryOrder[|categoryOrder| - 1];
      NestedValues(metricData, categoryOrder[..|categoryOrder| - 1], productOrders) + [Values(metricData[c], productOrders[c])]
  }

  // ---------------------------------------------------------------------------
  // The order-free totals

  /** The value each product of a category contributes to a column. */
  function ProductValue(categoryData: ProductMap, columnKey: string): string -> real {
    p => if p in categoryData then CellValue(categoryData[p], columnKey) else 0.0
  }

  /** The category total of a column: the sum over the category's products. */
  ghost function CategoryTotal(categoryData: ProductMap, columnKey: string): real {
    SetSum(categoryData.Keys, ProductValue(categoryData, columnKey))
  }

  /** The total each category of a metric contributes to a column. */
  ghost function CategoryValue(metricData: CategoryMap, columnKey: string): string -> real {
    c => if c in metricData then CategoryTotal(metricData[c], columnKey) else 0.0
  }

  /** The metric total of a column: the sum of its category totals. */
  ghost function MetricTotal(metricData: CategoryMap, columnKey: string): real {
    SetSum(metricData.Keys, CategoryValue(metricData, columnKey))
  }

  // ---------------------------------------------------------------------------
  // What the totals promise

  /**
   * Whatever order `Object.values` lists the products in, the category total
   * is the sum of the column's value over the category's products.
   */
  lemma {:induction false} CategoryTotalIsSum(categoryData: ProductMap, columnKey: string, order: seq<string>)
    requires Enumerates(order, categoryData.Keys)
    ensures CalculateCategoryTotal(Values(categoryData, order), columnKey) == CategoryTotal(categoryData, columnKey)
  {
    CategoryFold(categoryData, columnKey, order);
    assert Elems(order) == categoryData.Keys;
  }

  lemma {:induction false} CategoryFold(categoryData: ProductMap, columnKey: string, order: seq<string>)
    requires Distinct(order) && forall p :: p in order ==> p in categoryData
    ensures CalculateCategoryTotal(Values(categoryData, order), columnKey)
         == SetSum(Elems(order), ProductValue(categoryData, columnKey))
    decreases |order|
  {
    if order == [] {
      assert Elems(order) == {};
    } else {
      var init := order[..|order| - 1];
      var last := order[|order| - 1];
      ElemsSnoc(order);
      CategoryFold(categoryData, columnKey, init);
      var vs := Values(categoryData, order);
      assert vs[..|vs| - 1] == Values(categoryData, init);
      SetSumInsert(Elems(init), ProductValue(categoryData, columnKey), last);
    }
  }

  /**
   * Whatever order the categories and their products are listed in, the
   * metric total is the sum of the category totals.
   */
  lemma {:induction false} MetricTotalIsSum(metricData: CategoryMap, columnKey: string,
                                            categoryOrder: seq<string>, productOrders: map<string, seq<string>>)
    requires Enumerates(categoryOrder, metricData.Keys)
    requires OrdersProducts(metricData, productOrders)
    ensures CalculateMetricTotal(NestedValues(metricData, categoryOrder, productOrders), columnKey)
         == MetricTotal(metricData, columnKey)
  {
    MetricFold(metricData, columnKey, categoryOrder, productOrders);
    assert Elems(categoryOrder) == metricData.Keys;
  }

  lemma {:induction false} MetricFold(metricData: CategoryMap, columnKey: string,
                                      categoryOrder: seq<string>, productOrders: map<string, seq<string>>)
    requires Distinct(categoryOrder) && forall c :: c in categoryOrder ==> c in metricData
    requires OrdersProducts(metricData, productOrders)
    ensures CalculateMetricTotal(NestedValues(metricData, categoryOrder, productOrders), columnKey)
         == SetSum(Elems(categoryOrder), CategoryValue(metricData, columnKey))
    decreases |categoryOrder|
  {
    if categoryOrder == [] {
      assert Elems(categoryOrder) == {};
    } else {
      var init := categoryOrder[..|categoryOrder| - 1];
      var last := categoryOrder[|categoryOrder| - 1];
      ElemsSnoc(categoryOrder);
      MetricFold(metricData, columnKey, init, productOrders);
      var vs := NestedValues(metricData, categoryOrder, productOrders);
      assert vs[..|vs| - 1] == NestedValues(metricData, init, productOrders);
      assert vs[|vs| - 1] == Values(metricData[last], productOrders[last]);
      CategoryTotalIsSum(metricData[last], columnKey, productOrders[last]);
      SetSumInsert(Elems(init), CategoryValue(metricData, columnKey), last);
    }
  }

  /** Adding a product to a category adds exactly its value for the column (0 when absent or null). */
  lemma {:induction false} CategoryTotalAdd(categoryData: ProductMap, product: string, r: MetricData, columnKey: string)
    requires product !in categoryData
    ensures CategoryTotal(categoryData[product := r], columnKey)
         == CategoryTotal(categoryData, columnKey) + CellValue(r, columnKey)
  {
    var bigger := categoryData[product := r];
    assert bigger.Keys == categoryData.Keys + {product};
    SetSumInsert(categoryData.Keys, ProductValue(bigger, columnKey), product);
    SetSumCongruent(categoryData.Keys, ProductValue(bigger, columnKey), ProductValue(categoryData, columnKey));
  }

  /** A (category, product) pair: one product row of the table. */
  type Pair = (string, string)

  /** Every (category, product) pair of a metric whose category is in `categories`. */
  function Cells(metricData: CategoryMap, categories: set<string>): set<Pair>
    requires categories <= metricData.Keys
  {
    set c, p | c in categories && p in metricData[c] :: (c, p)
  }

  /** The value one (category, product) pair contributes to a column. */
  function PairValue(metricData: CategoryMap, columnKey: string): Pair -> real {
    (pr: Pair) => if pr.0 in metricData && pr.1 in metricData[pr.0] then CellValue(metricData[pr.0][pr.1], columnKey) else 0.0
  }

  /**
   * The metric total of a column is the sum of that month's value over every
   * product of every category of the metric.
   */
  lemma {:induction false} MetricTotalIsProductSum(metricData: CategoryMap, columnKey: string)
    ensures MetricTotal(metricData, columnKey)
         == SetSum(Cells(metricData, metricData.Keys), PairValue(metricData, columnKey))
  {
    CategoriesFlatten(metricData, columnKey, metricData.Keys);
  }

  lemma {:induction false} CategoriesFlatten(metricData: CategoryMap, columnKey: string, categories: set<string>)
    requires categories <= metricData.Keys
    ensures SetSum(categories, CategoryValue(metricData, columnKey))
         == SetSum(Cells(metricData, categories), PairValue(metricData, columnKey))
    decreases categories
  {
    var value := PairValue(metricData, columnKey);
    if categories == {} {
      assert Cells(metricData, categories) == {};
    } else {
      var c :| c in categories;
      var rest := categories - {c};
      SetSumRemove(categories, CategoryValue(metricData, columnKey), c);
      CategoriesFlatten(metricData, columnKey, rest);
      CellsSplit(metricData, categories, c);
      SetSumUnion(Cells(metricData, rest), Row(metricData, c), value);
      RowSum(metricData, columnKey, c);
    }
  }

  /** The pairs of one category. */
  function Row(metricData: CategoryMap, c: string): set<Pair>
    requires c in metricData
  {
    set p | p in metricData[c] :: (c, p)
  }

  lemma {:induction false} CellsSplit(metricData: CategoryMap, categories: set<string>, c: string)
    requires categories <= metricData.Keys && c in categories
    ensures Cells(metricData, categories) == Cells(metricData, categories - {c}) + Row(metricData, c)
    ensures Cells(metricData, categories - {c}) !! Row(metricData, c)
  {
  }

  /** The pairs of one category add up to that category's total. */
  lemma {:induction false} RowSum(metricData: CategoryMap, columnKey: string, c: string)
    requires c in metricData
    ensures SetSum(Row(metricData, c), PairValue(metricData, columnKey)) == CategoryTotal(metricData[c], columnKey)
  {
    var products := metricData[c].Keys;
    var pair := (p: string) => (c, p);
    var value := PairValue(metricData, columnKey);
    var productValue := ProductValue(metricData[c], columnKey);
    assert forall x, y :: x in products && y in products && pair(x) == pair(y) ==> x == y;
    assert forall x :: x in products ==> productValue(x) == value(pair(x));
    SetSumImage(products, pair, value, productValue);
    assert Row(metricData, c) == Image(products, pair);
  }
}

=== FILE: wrappers.dfy ===
/** The conventional optional value: JavaScript's `null`/`undefined` versus a present value. */
module Wrappers {

  datatype Option<+T> = None | Some(value: T) {

    /** The value, or `default` when there is none. */
    function GetOr(default: T): T {
      match this
      case Some(v) => v
      case None => default
    }
  }
}
